=== FILE: README.md ===
# Thematic-map helpers, modelled in Dafny

This project models the small, pure helpers inside a set of browser
mapping exercises. The Leaflet, D3 and proj4 calls around them are not
modelled. The model covers:

- **Attendance map** (`unit-2/js/main.js`). It models:
  - `calculateAllStats`, the per-season and global min/max/mean of
    positive arena attendance for 2016 to 2025;
  - `calcPropRadius`, the proportional-symbol radius in [4, 30] pixels;
  - the forward and reverse buttons of the time slider;
  - `processData`, which keeps the sorted "TOTAL" attribute names.
- **GeoJSON reprojection** (`unit-2/js/wisdot-disadvantaged-business.js`).
  `traverse` and `reprojectCoords` form a shape-preserving map over the
  geometry, Feature and FeatureCollection objects of RFC 7946. The proj4
  projection is a parameter.
- **Choropleth map** (`unit-3/js/choropleth-map.js`). It models:
  - `joinData`, which copies CSV fields onto regions with the same
    `adm1_code`;
  - the `#ccc` fill for falsy values;
  - the M/K unit choice of the bar-label `formatNumber`.
- **Megacity minimum** (`unit-2/js/adaptedTutorial.js`). `calculateMinValue`
  takes `Math.min` over the populations of 1985, 1990, …, 2015.
- **City table** (`Chapter03/js/main.js` and its debugged copy
  `unit-1/Chapter02/js/main_with_debug.js`). It models the Small/Medium/Large
  size column and the loop that builds the `rgb(a,b,c)` text.

Shared pieces:

- A JavaScript number is `NaN` or an exact real (`JsNumber.Num`).
- `String(n)`, `parseFloat`, `indexOf`, `split` and the default
  `Array.prototype.sort` order are modelled once, in `JsNumber` and
  `Strings`.
- Library calls whose results matter are passed in as function parameters:
  - `Math.sqrt`, as any function with root(0) = 0 and root(1) = 1 that never
    decreases;
  - the proj4 projection;
  - the D3 colour scale;
  - the `Math.random()` draws.

Modules and files:

| file | module | covers |
|---|---|---|
| wrappers.dfy | Wrappers | `Option`, `Result` |
| arith.dfy | Arith | uniqueness of Euclidean division |
| js_number.dfy | JsNumber | numbers, truthiness, `String(n)`, `parseFloat` |
| strings.dfy | Strings | `indexOf`, `split`, default sort order, sorting |
| attendance.dfy | Attendance | `calculateAllStats`, `processData` |
| prop_symbols.dfy | PropSymbols | statistics selection, `calcPropRadius` |
| sequence_controls.dfy | SequenceControls | forward/reverse stepping |
| geojson.dfy | GeoJson | `reprojectCoords`, `traverse` |
| choropleth.dfy | Choropleth | `joinData`, fill rule, `formatNumber` |
| min_scan.dfy | MegaCities | `calculateMinValue`, `Math.min` |
| city_table.dfy | CityTable | `addColumns`, the `rgb(...)` loop |

## Model

| member | source | states |
|---|---|---|
| JsNumber.NatToString | unit-2/js/main.js:65 | the text `"TOTAL_" + year` uses for a year: a non-empty digit string without a leading zero whose decimal value is the year |
| JsNumber.NatToStringInjective | unit-2/js/main.js:65 | different years give different attribute names |
| JsNumber.CanonicalNumeral | unit-2/js/main.js:99 | every digit string without a leading zero is the `String` of its value, so a key written as text finds exactly one year |
| JsNumber.ParseFloat | unit-3/js/choropleth-map.js:122 | parseFloat is NaN exactly when, after leading white space and one sign, the text does not begin with a digit or a point followed by a digit |
| JsNumber.ParseFloatOfWord | unit-3/js/choropleth-map.js:122 | text that begins with anything other than white space, a sign, a point or a digit (a state name, "undefined") parses to NaN |
| JsNumber.ParseFloatOfNumeral | unit-3/js/choropleth-map.js:122 | parseFloat reads back the number an integer numeral writes, whatever non-numeric text follows |
| JsNumber.ParseFloatOfDecimal | unit-3/js/choropleth-map.js:122 | a field such as "12.5" reads as its integer part plus the fraction digits taken as tenths, hundredths, …, whatever text other than digits or an exponent follows |
| JsNumber.ParseFloatOfNegativeNumeral | unit-3/js/choropleth-map.js:122 | a leading minus sign negates the number read |
| Strings.IndexOf | unit-2/js/main.js:378 | `indexOf(pat) > -1` holds exactly when pat occurs in the text, and the result is the first occurrence |
| Strings.Split | unit-2/js/main.js:96 | `split("_")` gives at least one piece, no piece contains the separator, and joining the pieces with the separator gives back the text |
| Strings.SecondPiece | unit-2/js/main.js:96 | `split("_")[1]` is undefined exactly when the text has no "_" |
| Strings.SecondPieceAfterPrefix | unit-2/js/main.js:96 | for "TOTAL_" followed by a year, `split("_")[1]` is the year's text |
| Strings.BelowTotal | unit-2/js/main.js:383 | any two names are ordered one way or the other by the default sort comparison |
| Strings.BelowTransitive | unit-2/js/main.js:383 | the default sort comparison is transitive |
| Strings.BelowAntisymmetric | unit-2/js/main.js:383 | two names ordered both ways are equal |
| Strings.Sort | unit-2/js/main.js:383 | `attributes.sort()` returns an ascending permutation of its input |
| Attendance.Positives | unit-2/js/main.js:68-72 | only values that pass `value > 0` are kept: NaN, 0 and negatives are dropped and every positive value is kept |
| Attendance.PositivesCount | unit-2/js/main.js:67-72 | each positive value is pushed as often as it occurs among the features, so duplicates are kept and the mean is taken over all of them |
| Attendance.YearValuesNonEmpty | unit-2/js/main.js:64-75 | a season's value list is non-empty exactly when some feature's attendance for it is positive |
| Attendance.ValuesOfYears | unit-2/js/main.js:64-71 | the global list holds exactly the positive values of the seasons visited |
| Attendance.ValuesOfYearsCounts | unit-2/js/main.js:64-73 | `allValues` holds each positive value once for every season and feature that records it |
| Attendance.StatsOf | unit-2/js/main.js:76-80 | a stored record's min and max are members of the values and bound them all, and mean times count is the sum, so min ≤ mean ≤ max |
| Attendance.PerYearEntryIffPositive | unit-2/js/main.js:64-81 | a season gets a per-year record exactly when it lies in 2016..2025 and has a positive value, and the record summarises that season's positive values |
| Attendance.GlobalIffSomeYear | unit-2/js/main.js:85-89 | global statistics are assigned exactly when some season got a per-year record |
| Attendance.CalculateAllStats | unit-2/js/main.js:64-89 | the global minimum, when assigned, is positive, because only values with `value > 0` reach `allValues` |
| Attendance.StoredStatsOrdered | unit-2/js/main.js:76-88 | every stored record, per-year or global, has 0 < min ≤ mean ≤ max |
| Attendance.GlobalCoversPerYear | unit-2/js/main.js:69-87 | global min ≤ every per-year min, and global max ≥ every per-year max |
| Attendance.SeasonWithinGlobal | unit-2/js/main.js:69-87 | a season that got a record lies inside the global range: its min is ≥ the global min and its max ≤ the global max |
| Attendance.OnlyPositiveValuesCount | unit-2/js/main.js:68-80 | a season's min and max are values of that season, min is positive, and they bound every positive value of it |
| Attendance.TotalNames | unit-2/js/main.js:376-381 | a name is kept exactly when it is a property name containing "TOTAL" |
| Attendance.ProcessData | unit-2/js/main.js:368-389 | it fails exactly when there is no first feature; otherwise the result is sorted, is a permutation of the "TOTAL" names, and contains exactly those names |
| PropSymbols.KeyYear | unit-2/js/main.js:99 | `perYearStats[text]` finds year y exactly when text is `String(y)` |
| PropSymbols.SelectStats | unit-2/js/main.js:96-99 | the global scale selects exactly the record `globalStats` holds, or the empty object when none was assigned; the season scale selects the record stored under the year that `split("_")[1]` names ("undefined" when there is no "_"), or undefined when that season has none, and never the empty object |
| PropSymbols.SelectSeasonStats | unit-2/js/main.js:96-99 | on the season scale, attribute "TOTAL_<year>" selects that year's record, or undefined when it has none |
| PropSymbols.ScaledRadius | unit-2/js/main.js:107-116 | MIN_RADIUS when max === min; for min ≤ v ≤ max the radius lies in [4, 30], with 4 at min and 30 at max; below min it is NaN |
| PropSymbols.CalcPropRadius | unit-2/js/main.js:94-119 | as written: 0 for a falsy or non-positive value, undefined stats or min ≤ 0; the empty global object gives 4; within [min, max] the radius is in [4, 30] |
| PropSymbols.EmptyGlobalStatsGiveMinRadius | unit-2/js/main.js:99-109 | with the global scale and no global statistics, every positive value gets radius 4 rather than 0 |
| PropSymbols.CalcPropRadiusGuarded | unit-2/js/main.js:102-104 | the guard as intended: 0 whenever no statistics record is selected, and otherwise the same as calcPropRadius |
| PropSymbols.RadiusOfFlatStats | unit-2/js/main.js:107-109 | with max === min every positive value gets MIN_RADIUS |
| PropSymbols.RadiusMonotone | unit-2/js/main.js:111-116 | the radius never decreases from min to max, and it is 4 at min and 30 at max |
| PropSymbols.GlobalBoundsRecordedValue | unit-2/js/main.js:64-89 | once calculateAllStats has run, any positive value of a season lies within the global min and max |
| PropSymbols.RecordedValueRadiusInRange | unit-2/js/main.js:94-116 | any positive recorded value gets a radius in [4, 30] on either scale |
| SequenceControls.Forward | unit-2/js/main.js:321-325 | the forward step stays in [0, maxIndex] and moves one place round the list, (index + 1) mod the list length |
| SequenceControls.Reverse | unit-2/js/main.js:327-331 | the reverse step stays in [0, maxIndex] and moves one place back round the list, (index - 1) mod the list length |
| SequenceControls.StepsAreInverse | unit-2/js/main.js:321-331 | reverse undoes forward and forward undoes reverse |
| SequenceControls.SteppedAttribute | unit-2/js/main.js:315-331 | with maxIndex taken from the attribute list, a forward click shows attribute (index + 1) mod the list length and a reverse click attribute (index - 1) mod the list length, so the last wraps to the first and back |
| SequenceControls.ForwardClicksWrap | unit-2/js/main.js:321-325 | n forward clicks land on (index + n) mod the list length, so one click per attribute returns to the start |
| SequenceControls.FullCycleReturns | unit-2/js/main.js:281-325 | as many forward clicks as there are attributes bring the slider back to where it started |
| GeoJson.Reproject | unit-2/js/wisdot-disadvantaged-business.js:10-14 | a reprojected position has exactly two components, the projection of its first two |
| GeoJson.Traverse | unit-2/js/wisdot-disadvantaged-business.js:17-41 | only position values change: node types, member order, array lengths at every depth and feature properties are kept, and null or unrecognised nodes are untouched; the output positions are the input positions in document order, each reprojected exactly once, and each has two components |
| GeoJson.MapPositions | unit-2/js/wisdot-disadvantaged-business.js:18-40 | the walk keeps the skeleton for any per-position function |
| GeoJson.MapPositionsInOrder | unit-2/js/wisdot-disadvantaged-business.js:20-39 | each position is visited once, in document order, at the depth its geometry type stores positions |
| GeoJson.TraverseRoundTrip | unit-2/js/wisdot-disadvantaged-business.js:10-41 | traversing again with the inverse projection gives back the input with every position cut to two components |
| Choropleth.Assign | unit-3/js/choropleth-map.js:121-124 | each attrArray attribute becomes parseFloat of the row's field (a missing field parses "undefined"); every other property is unchanged |
| Choropleth.KeysMatch | unit-3/js/choropleth-map.js:109-118 | `geojsonKey == csvKey`: two missing keys match, a missing key never matches a present one, and two text keys match exactly when they are equal |
| Choropleth.JoinRow | unit-3/js/choropleth-map.js:112-126 | one CSV row updates every region whose key matches (`==`, with two missing keys matching) and leaves the others as they were |
| Choropleth.JoinData | unit-3/js/choropleth-map.js:105-130 | the same regions in the same order; only attrArray properties change, so the join key never does |
| Choropleth.UnmatchedRegionUnchanged | unit-3/js/choropleth-map.js:118 | a region that no row matches comes out unchanged |
| Choropleth.LastMatchWins | unit-3/js/choropleth-map.js:107-126 | a matched region ends with the attributes of the last matching row |
| Choropleth.StateNameBecomesNaN | unit-3/js/choropleth-map.js:121-123 | a field starting with a letter, such as the state name, is stored as NaN |
| Choropleth.MissingFieldBecomesNaN | unit-3/js/choropleth-map.js:122 | a field missing from the row is stored as NaN |
| Choropleth.Fill | unit-3/js/choropleth-map.js:189-196 | a falsy value (missing, empty text, 0, NaN) is filled "#ccc"; only truthy values go to the colour scale |
| Choropleth.FillAfterJoin | unit-3/js/choropleth-map.js:189-196 | after the join, a region is coloured by its last matching row's parsed loss when that is truthy, and is grey when it is 0 or NaN |
| Choropleth.FormatNumber | unit-3/js/choropleth-map.js:271-278 | 'M' exactly from 1,000,000, 'K' exactly from 1,000 below that, no suffix otherwise or for NaN; the scaled number times the unit is the input, and a K value lies in [1, 1000) |
| MegaCities.AllValuesLayout | unit-2/js/adaptedTutorial.js:29-37 | 7 × \|features\| values are collected, and value i is feature i / 7's population in year 1985 + 5 × (i mod 7) |
| MegaCities.CollectValues | unit-2/js/adaptedTutorial.js:27-37 | the nested loops collect exactly those values, feature after feature and year after year |
| MegaCities.MathMin | unit-2/js/adaptedTutorial.js:39 | `Math.min` gives +Infinity for no values and NaN if any value is NaN; otherwise it gives a member that is ≤ every value |
| MegaCities.CalculateMinValue | unit-2/js/adaptedTutorial.js:25-42 | +Infinity exactly when there are no features; a numeric result is ≤ every collected population and equals one of them |
| MegaCities.ZeroIsTheMinimum | unit-2/js/adaptedTutorial.js:33-39 | no positivity filter: a recorded 0 among non-negative values is the result |
| CityTable.Classify | Chapter03/js/main.js:66-74 | Small exactly below 100000, Medium exactly from 100000 to below 500000, Large exactly from 500000 (and for NaN); the debugged copy (unit-1/Chapter02/js/main_with_debug.js, lines 67-76) has the same thresholds |
| CityTable.ClassifyMonotone | Chapter03/js/main.js:66-74 | a larger population never gets a smaller class |
| CityTable.AddColumns | Chapter03/js/main.js:59-77 | row 0 gets the header cell, and row i ≥ 1 gets the size of `cityPop[i-1]`; the debugged copy (lines 59-80) adds the same cells |
| CityTable.FixedDataSizes | Chapter03/js/main.js:5-22 | with the table's data, Madison is Medium, Milwaukee Large, Green Bay Medium and Superior Small |
| CityTable.JsRound | Chapter03/js/main.js:89 | `Math.round` lands within half a unit of its argument |
| CityTable.Channel | Chapter03/js/main.js:89 | `Math.round(Math.random() * 255)` is an integer from 0 to 255 |
| CityTable.BuildColor | Chapter03/js/main.js:85-98 | the loop builds exactly "rgb(" + a + "," + b + "," + c + ")" from the three rounded draws; the debugged copy's loop (lines 88-103) builds the same text |
| CityTable.RgbRoundTrip | Chapter03/js/main.js:85-98 | reading the colour text back gives its three numbers again |
| CityTable.BuiltColorChannels | Chapter03/js/main.js:85-98 | every colour built has three channels from 0 to 255 that can be read back from the text |

## Left out

- Floating point. Numbers are exact reals, so IEEE-754 rounding, the
  infinities (except as the result of `Math.min()`) and negative zero are not
  represented.
- JsNumber.ParseFloat: does not read the "Infinity" literal. It reads
  "Infinity" as NaN where JavaScript gives Infinity, because infinities are
  not represented.
- Math.sqrt: its exact value is not modelled. `calcPropRadius` is proved for
  any root function with root(0) = 0 and root(1) = 1 that never decreases.
- proj4: the transverse Mercator formulas of EPSG:3071 are not modelled.
  `reprojectCoords` takes the projection as a parameter.
- GeoJson.Traverse: `traverse` mutates the input tree, replacing each
  geometry's `coordinates` member with a new array, while the model returns a
  new tree. A geometry object reached twice (one geometry shared by two
  features) would be reprojected twice; that sharing is not modelled.
- GeoJson.Traverse: `bbox` members (section 5 of RFC 7946) and foreign members
  are not represented; `traverse` leaves them unprojected.
- GeoJson.Traverse: a geometry whose `coordinates` member is missing, a
  FeatureCollection without `features` (line 21) or a GeometryCollection
  without `geometries` (line 25) throws a TypeError in `traverse`; the
  model's nodes always carry these members, so the throw is not modelled.
- Choropleth.KeysMatch: a region key that is a number, compared with CSV text
  by loose `==`, is treated as no match. `adm1_code` is text in the data, and
  the join never assigns it.
- Choropleth.JoinData: the join returns a new sequence rather than the same
  array updated in place.
- D3 and simple-statistics: `d3.scaleQuantile` and `ss.ckmeans` in
  `makeColorScale` are not modelled. The colour scale is a parameter of the
  fill rule.
- `toFixed` and `toLocaleString`: the digit rendering is not modelled.
  `FormatNumber` returns the scaled number, the digit count and the suffix.
- Math.random: the draws are a parameter of `BuildColor`.
- Attendance.TotalNames: `for…in` enumeration order, including inherited
  enumerable names, is taken as the given order of the property names.
- Strings.Sort: the default sort compares UTF-16 code units, while the model
  compares characters. The two orders differ only for characters outside the
  Basic Multilingual Plane.
- Attendance.CalculateAllStats: `Number(...)` of property text is not
  modelled; property values are given as numbers, with a missing one read as
  NaN.
- Attendance.CalculateAllStats: a feature whose `properties` is null or
  missing throws a TypeError at unit-2/js/main.js:68; every modelled feature
  has a property map, so the throw is not modelled.
- PropSymbols.SelectStats: `perYearStats[year]` also finds members inherited
  from `Object.prototype`. An attribute such as "TOTAL_constructor" would pass
  the guard and give MIN_RADIUS; the model looks up only decimal year text
  among the stored seasons, so such a name selects undefined.
- PropSymbols.CalcPropRadius: `attValue` is taken to be a number.
  `updatePropSymbols` passes the raw property value (unit-2/js/main.js:259-262);
  truthy non-numeric text there would give NaN, or 4 when max === min, and that
  case is not modelled.
- MegaCities.CalculateMinValue: a population is a number, or NaN when it is
  missing. A JSON null, which `Math.min` reads as 0, and a missing
  `properties` (TypeError at unit-2/js/adaptedTutorial.js:33) are not
  modelled.
- CityTable.AddColumns: the rows are the header row plus one row per city,
  as `initialize` builds them. A page with further `tr` elements would read
  past the end of `cityPop`.
- Browser I/O and events: `fetch`, `Promise.all`, the DOM, event listeners,
  `alert`, and the slider's own `input` handler. The slider's index is an
  integer in [0, maxIndex].
- `updateLegend`'s statistics selection (unit-2/js/main.js:419) and the
  Flannery radius of `adaptedTutorial.js` are not modelled.
- Chart plumbing: the duplicated `updateSummaryPanel`/`resetSummaryPanel`
  are not modelled.
- Glue files without logic are not part of this model:
  - `leaflet-providers-demo.js`
  - `quickstartTutorial.js`
  - `main-2.js`
  - `bubblechart.js`

## Findings

| source | as written | input that shows it | evidently intended | confidence | as-written member | corrected member |
|---|---|---|---|---|---|---|
| unit-2/js/main.js:99-109 | The guard `!stats \|\| stats.min <= 0` lets the empty `globalStats` object through. `{}` is truthy, and `undefined <= 0` is false. `undefined === undefined` then returns MIN_RADIUS. | Global scale, with every positive attendance value in attributes outside 2016–2025 (for example `TOTAL_2015` = 500). `calcPropRadius(500, "TOTAL_2015")` returns 4. | Return 0 when no statistics record exists, as the comment on the guard says. | not executed | PropSymbols.CalcPropRadius | PropSymbols.CalcPropRadiusGuarded |

=== FILE: arith.dfy ===
/** Facts about Euclidean division that the index arithmetic relies on. */
module Arith {

  /** Euclidean division is unique: x = q * k + r with 0 <= r < k fixes the quotient and remainder. */
  lemma DivModUnique(x: int, k: int, q: int, r: int)
    requires k > 0 && 0 <= r < k && x == q * k + r
    ensures x / k == q && x % k == r
  {
    var d := q - x / k;
    assert d * k == x % k - r;
    MultipleBound(d, k);
  }

  /** A non-zero multiple of k is at least k away from 0. */
  lemma MultipleBound(d: int, k: int)
    requires k > 0
    ensures d >= 1 ==> d * k >= k
    ensures d <= -1 ==> d * k <= -k
  {
    if d >= 1 {
      assert d * k == (d - 1) * k + k;
    }
    if d <= -1 {
      assert d * k == (d + 1) * k - k;
    }
  }
}

=== FILE: attendance.dfy ===
/**
 * The NBA arena attendance map (unit-2/js/main.js): the per-year and global
 * attendance statistics, and the list of attendance attributes the time
 * slider steps through.
 */
module Attendance {
  import opened Wrappers
  import opened JsNumber
  import Strings

  /**
   * A feature's properties object: its keys in the order `for…in` enumerates
   * them, and the number `Number()` makes of each value.
   */
  datatype Feature = Feature(names: seq<string>, values: map<string, Num>)

  /** `Number(feature.properties[key])`; a missing key is undefined, which becomes NaN. */
  function NumberOf(f: Feature, key: string): Num {
    if key in f.values then f.values[key] else NaN
  }

  /** The seasons calculateAllStats visits. */
  const FirstYear: nat := 2016
  const LastYear: nat := 2025

  /** The property holding one season's attendance: "TOTAL_" followed by the year. */
  function YearAttribute(year: nat): string {
    "TOTAL_" + NatToString(year)
  }

  /** Some feature's attendance for the year is a number greater than 0. */
  ghost predicate HasPositive(features: seq<Feature>, year: nat) {
    exists i :: 0 <= i < |features| && NumberOf(features[i], YearAttribute(year)).Fin?
                                    && NumberOf(features[i], YearAttribute(year)).v > 0.0
  }

  // ------------------------------------------------------------------
  // Collecting values

  /** The values of ns that pass `value > 0`, in order; NaN fails every comparison. */
  function Positives(ns: seq<Num>): (xs: seq<real>)
    ensures forall i :: 0 <= i < |xs| ==> xs[i] > 0.0
    ensures forall x :: x in xs <==> Fin(x) in ns && x > 0.0
    ensures |xs| <= |ns|
  {
    if |ns| == 0 then []
    else
      assert ns == [ns[0]] + ns[1..];
      (if ns[0].Fin? && ns[0].v > 0.0 then [ns[0].v] else []) + Positives(ns[1..])
  }

  /** Each positive value is kept as many times as it occurs, so the mean weighs every record once. */
  lemma {:induction false} PositivesCount(ns: seq<Num>, x: real)
    requires x > 0.0
    ensures multiset(Positives(ns))[x] == multiset(ns)[Fin(x)]
  {
    if |ns| > 0 {
      assert ns == [ns[0]] + ns[1..];
      PositivesCount(ns[1..], x);
    }
  }

  /** One season's attendance, feature by feature. */
  function YearColumn(features: seq<Feature>, year: nat): (ns: seq<Num>)
    ensures |ns| == |features|
    ensures forall i :: 0 <= i < |features| ==> ns[i] == NumberOf(features[i], YearAttribute(year))
  {
    seq(|features|, i requires 0 <= i < |features| => NumberOf(features[i], YearAttribute(year)))
  }

  /** `yearValues`: the positive attendance values of one season, in feature order. */
  function YearValues(features: seq<Feature>, year: nat): seq<real> {
    Positives(YearColumn(features, year))
  }

  lemma YearValuesNonEmpty(features: seq<Feature>, year: nat)
    ensures |YearValues(features, year)| > 0 <==> HasPositive(features, year)
  {
    var ns := YearColumn(features, year);
    var xs := YearValues(features, year);
    if |xs| > 0 {
      assert xs[0] in xs;
      var i :| 0 <= i < |ns| && ns[i] == Fin(xs[0]);
      assert NumberOf(features[i], YearAttribute(year)) == Fin(xs[0]);
    }
    if HasPositive(features, year) {
      var i :| 0 <= i < |features| && NumberOf(features[i], YearAttribute(year)).Fin?
                                   && NumberOf(features[i], YearAttribute(year)).v > 0.0;
      assert ns[i] in ns;
      assert NumberOf(features[i], YearAttribute(year)).v in xs;
    }
  }

  /** The seasons FirstYear..LastYear, in increasing order. */
  function StatYears(): (ys: seq<nat>)
    ensures |ys| == LastYear - FirstYear + 1
    ensures forall k :: 0 <= k < |ys| ==> ys[k] == FirstYear + k
  {
    seq(LastYear - FirstYear + 1, k => FirstYear + k)
  }

  /** How many times the number x is recorded for the given seasons, over all features. */
  ghost function Recorded(features: seq<Feature>, years: seq<nat>, x: real): nat {
    if |years| == 0 then 0
    else multiset(YearColumn(features, years[0]))[Fin(x)] + Recorded(features, years[1..], x)
  }

  /** `allValues`: the positive values of the given seasons, season by season. */
  function ValuesOfYears(features: seq<Feature>, years: seq<nat>): (xs: seq<real>)
    ensures forall x :: x in xs <==> exists k :: 0 <= k < |years| && x in YearValues(features, years[k])
  {
    if |years| == 0 then []
    else
      var rest := ValuesOfYears(features, years[1..]);
      assert forall k :: 1 <= k < |years| ==> years[k] == years[1..][k - 1];
      YearValues(features, years[0]) + rest
  }

  /**
   * Every positive value is in `allValues` as many times as it is recorded
   * for the seasons visited, so the global mean weighs each record once.
   */
  lemma {:induction false} ValuesOfYearsCounts(features: seq<Feature>, years: seq<nat>, x: real)
    requires x > 0.0
    ensures multiset(ValuesOfYears(features, years))[x] == Recorded(features, years, x)
  {
    if |years| > 0 {
      ValuesOfYearsCounts(features, years[1..], x);
      PositivesCount(YearColumn(features, years[0]), x);
    }
  }

  // ------------------------------------------------------------------
  // Statistics

  function Min(xs: seq<real>): (m: real)
    requires |xs| > 0
    ensures m in xs && forall x :: x in xs ==> m <= x
  {
    if |xs| == 1 then xs[0]
    else
      assert xs == [xs[0]] + xs[1..];
      var rest := Min(xs[1..]);
      if xs[0] <= rest then xs[0] else rest
  }

  function Max(xs: seq<real>): (m: real)
    requires |xs| > 0
    ensures m in xs && forall x :: x in xs ==> x <= m
  {
    if |xs| == 1 then xs[0]
    else
      assert xs == [xs[0]] + xs[1..];
      var rest := Max(xs[1..]);
      if xs[0] >= rest then xs[0] else rest
  }

  /** `values.reduce((a, b) => a + b)`. */
  function Sum(xs: seq<real>): real {
    if |xs| == 0 then 0.0 else xs[0] + Sum(xs[1..])
  }

  /** A sum of n values lying in [lo, hi] lies in [n * lo, n * hi]. */
  lemma {:induction false} SumBounds(xs: seq<real>, lo: real, hi: real)
    requires forall x :: x in xs ==> lo <= x <= hi
    ensures |xs| as real * lo <= Sum(xs) <= |xs| as real * hi
  {
    if |xs| > 0 {
      var rest := xs[1..];
      assert xs[0] in xs;
      assert forall x :: x in rest ==> x in xs;
      SumBounds(rest, lo, hi);
      var n := |rest| as real;
      assert |xs| as real * lo == n * lo + lo;
      assert |xs| as real * hi == n * hi + hi;
    }
  }

  /** A total of count values, divided by count and multiplied back, is the total. */
  lemma MeanTimesCount(total: real, count: nat)
    requires count > 0
    ensures total / count as real * count as real == total
  {
  }

  /** A total of count values that are all at least lo, divided by count, is at least lo. */
  lemma MeanAtLeast(total: real, count: nat, lo: real)
    requires count > 0 && count as real * lo <= total
    ensures lo <= total / count as real
  {
    var n := count as real;
    var m := total / n;
    assert m * n == total;
    assert (m - lo) * n == total - n * lo;
  }

  /** A total of count values that are all at most hi, divided by count, is at most hi. */
  lemma MeanAtMost(total: real, count: nat, hi: real)
    requires count > 0 && total <= count as real * hi
    ensures total / count as real <= hi
  {
    var n := count as real;
    var m := total / n;
    assert m * n == total;
    assert (hi - m) * n == n * hi - total;
  }

  datatype Stats = Stats(min: real, max: real, mean: real)

  /** The record stored for a non-empty list of values: its least and greatest member and its mean. */
  function StatsOf(xs: seq<real>): (s: Stats)
    requires |xs| > 0
    ensures s.min in xs && s.max in xs
    ensures forall x :: x in xs ==> s.min <= x <= s.max
    ensures s.mean * |xs| as real == Sum(xs)
    ensures s.min <= s.mean <= s.max
  {
    var lo, hi := Min(xs), Max(xs);
    MeanBounds(xs, lo, hi);
    MeanTimesCount(Sum(xs), |xs|);
    Stats(lo, hi, Sum(xs) / |xs| as real)
  }

  /** The mean of values that all lie in [lo, hi] lies in [lo, hi]. */
  lemma MeanBounds(xs: seq<real>, lo: real, hi: real)
    requires |xs| > 0
    requires forall x :: x in xs ==> lo <= x <= hi
    ensures lo <= Sum(xs) / |xs| as real <= hi
  {
    SumBounds(xs, lo, hi);
    MeanAtLeast(Sum(xs), |xs|, lo);
    MeanAtMost(Sum(xs), |xs|, hi);
  }

  /**
   * What calculateAllStats leaves in `perYearStats` and in `globalStats`
   * (None: never assigned, so still the empty object). `perYearStats` is
   * keyed by the year; JavaScript keeps such a key as the year's decimal text.
   */
  datatype AllStats = AllStats(perYear: map<nat, Stats>, global: Option<Stats>)

  /** `calculateAllStats(data)`, starting from empty statistics. */
  function CalculateAllStats(features: seq<Feature>): (r: AllStats)
    ensures r.global.Some? ==> 0.0 < r.global.value.min
  {
    var all := ValuesOfYears(features, StatYears());
    AllStats(map y: nat | FirstYear <= y <= LastYear && |YearValues(features, y)| > 0 :: StatsOf(YearValues(features, y)),
             if |all| > 0 then Some(StatsOf(all)) else None)
  }

  /**
   * Exactly the seasons in range for which some feature's attendance is
   * positive get a per-year record, and the record summarises that season's
   * positive values.
   */
  lemma PerYearEntryIffPositive(features: seq<Feature>, year: nat)
    ensures year in CalculateAllStats(features).perYear <==> FirstYear <= year <= LastYear && HasPositive(features, year)
    ensures year in CalculateAllStats(features).perYear ==>
              CalculateAllStats(features).perYear[year] == StatsOf(YearValues(features, year))
  {
    YearValuesNonEmpty(features, year);
  }

  /** Global statistics are set exactly when some season got a per-year record. */
  lemma GlobalIffSomeYear(features: seq<Feature>)
    ensures var r := CalculateAllStats(features);
            r.global.Some? <==> exists y :: y in r.perYear
  {
    SomeValueIffSomeYear(features);
    if CalculateAllStats(features).global.Some? {
      GlobalGivesSomeYear(features);
    }
    if exists y :: y in CalculateAllStats(features).perYear {
      var y :| y in CalculateAllStats(features).perYear;
      PerYearEntryIffPositive(features, y);
      YearValuesNonEmpty(features, y);
    }
  }

  lemma GlobalGivesSomeYear(features: seq<Feature>)
    requires CalculateAllStats(features).global.Some?
    ensures exists y :: y in CalculateAllStats(features).perYear
  {
    SomeValueIffSomeYear(features);
    var y: nat :| FirstYear <= y <= LastYear && |YearValues(features, y)| > 0;
    YearValuesNonEmpty(features, y);
    PerYearEntryIffPositive(features, y);
  }

  /** The global list is non-empty exactly when some season's list is. */
  lemma SomeValueIffSomeYear(features: seq<Feature>)
    ensures |ValuesOfYears(features, StatYears())| > 0 <==>
            exists y: nat :: FirstYear <= y <= LastYear && |YearValues(features, y)| > 0
  {
    var all := ValuesOfYears(features, StatYears());
    if |all| > 0 {
      assert all[0] in all;
      var k :| 0 <= k < |StatYears()| && all[0] in YearValues(features, StatYears()[k]);
      var y := StatYears()[k];
      assert FirstYear <= y <= LastYear && |YearValues(features, y)| > 0;
    }
    if exists y: nat :: FirstYear <= y <= LastYear && |YearValues(features, y)| > 0 {
      var y: nat :| FirstYear <= y <= LastYear && |YearValues(features, y)| > 0;
      var x := YearValues(features, y)[0];
      assert x in YearValues(features, y);
      assert StatYears()[y - FirstYear] == y;
      assert x in all;
    }
  }

  /** Every stored record satisfies 0 < min <= mean <= max. */
  lemma StoredStatsOrdered(features: seq<Feature>)
    ensures var r := CalculateAllStats(features);
            forall key :: key in r.perYear ==>
              0.0 < r.perYear[key].min <= r.perYear[key].mean <= r.perYear[key].max
    ensures var r := CalculateAllStats(features);
            r.global.Some? ==> 0.0 < r.global.value.min <= r.global.value.mean <= r.global.value.max
  {
    var r := CalculateAllStats(features);
    forall key | key in r.perYear
      ensures 0.0 < r.perYear[key].min <= r.perYear[key].mean <= r.perYear[key].max
    {
      assert r.perYear[key].min in YearValues(features, key);
    }
    if r.global.Some? {
      var all := ValuesOfYears(features, StatYears());
      var m := r.global.value.min;
      assert m in all;
      var k :| 0 <= k < |StatYears()| && m in YearValues(features, StatYears()[k]);
    }
  }

  /** The global values are all seasons' values together: global min and max bound every season's. */
  lemma GlobalCoversPerYear(features: seq<Feature>)
    ensures var r := CalculateAllStats(features);
            forall key :: key in r.perYear ==>
              r.global.Some? && r.global.value.min <= r.perYear[key].min && r.perYear[key].max <= r.global.value.max
  {
    var r := CalculateAllStats(features);
    forall key | key in r.perYear
      ensures r.global.Some? && r.global.value.min <= r.perYear[key].min && r.perYear[key].max <= r.global.value.max
    {
      SeasonWithinGlobal(features, key);
    }
  }

  /** One season's record lies within the global one. */
  lemma SeasonWithinGlobal(features: seq<Feature>, key: nat)
    requires key in CalculateAllStats(features).perYear
    ensures var r := CalculateAllStats(features);
            r.global.Some? && r.global.value.min <= r.perYear[key].min && r.perYear[key].max <= r.global.value.max
  {
    var r := CalculateAllStats(features);
    var all := ValuesOfYears(features, StatYears());
    assert StatYears()[key - FirstYear] == key;
    var s := r.perYear[key];
    assert s.min in YearValues(features, key) && s.max in YearValues(features, key);
    assert s.min in all && s.max in all;
  }

  /**
   * Only values greater than 0 take part: a season's record is made of that
   * season's positive values and bounds every positive value of it.
   */
  lemma OnlyPositiveValuesCount(features: seq<Feature>, year: nat, i: nat)
    requires year in CalculateAllStats(features).perYear
    requires i < |features|
    ensures var s := CalculateAllStats(features).perYear[year];
            var n := NumberOf(features[i], YearAttribute(year));
            && (n.Fin? && n.v > 0.0 ==> s.min <= n.v <= s.max)
            && Fin(s.min) in YearColumn(features, year) && Fin(s.max) in YearColumn(features, year)
            && 0.0 < s.min
  {
    var ns := YearColumn(features, year);
    assert ns[i] in ns;
  }

  // ------------------------------------------------------------------
  // The attribute list

  /** The names that contain "TOTAL" (`indexOf("TOTAL") > -1`), in their original order. */
  function TotalNames(names: seq<string>): (r: seq<string>)
    ensures forall n :: n in r <==> n in names && Strings.Contains(n, "TOTAL")
    ensures |r| <= |names|
  {
    if |names| == 0 then []
    else
      assert names == [names[0]] + names[1..];
      (if Strings.IndexOf(names[0], "TOTAL") > -1 then [names[0]] else []) + TotalNames(names[1..])
  }

  /** processData reads `data.features[0].properties`; with no features that read throws. */
  datatype ProcessError = NoFirstFeature

  /**
   * `processData(data)`: the first feature's property names containing
   * "TOTAL", sorted ascending.
   */
  function ProcessData(features: seq<Feature>): (r: Result<seq<string>, ProcessError>)
    ensures r.Failure? <==> |features| == 0
    ensures r.Success? ==> Strings.Sorted(r.value)
    ensures r.Success? ==> multiset(r.value) == multiset(TotalNames(features[0].names))
    ensures r.Success? ==> forall n :: n in r.value <==> n in features[0].names && Strings.Contains(n, "TOTAL")
  {
    if |features| == 0 then Failure(NoFirstFeature)
    else
      var sorted := Strings.Sort(TotalNames(features[0].names));
      assert forall n :: n in sorted <==> n in multiset(sorted);
      Success(sorted)
  }
}

=== FILE: choropleth.dfy ===
/**
 * The choropleth map of unit-3/js/choropleth-map.js: `joinData` copies the
 * CSV attributes onto the GeoJSON regions with the same `adm1_code`, the
 * fill rule sends only truthy values through the colour scale, and the
 * bar-label `formatNumber` picks an M or K unit.
 */
module Choropleth {
  import opened Wrappers
  import opened JsNumber

  /** A property value of a region: the text the file was loaded with, or a number joinData assigned. */
  datatype JsVal = Str(s: string) | NumVal(n: Num)

  /** ToBoolean of a property that may be missing (undefined). */
  predicate JsTruthy(v: Option<JsVal>) {
    v.Some? && match v.value
               case Str(s) => |s| > 0
               case NumVal(n) => Truthy(n)
  }

  /** A GeoJSON region: its `properties` object. */
  datatype Region = Region(props: map<string, JsVal>)

  /** A CSV record as loaded: every field is text. */
  type Row = map<string, string>

  /** The join key. */
  const KeyName: string := "adm1_code"

  /** `attrArray`: the attributes joinData copies. */
  const AttrArray: seq<string> := ["rank", "state", "loss_usd"]

  /** Membership in attrArray. */
  predicate IsAttr(k: string) {
    k in AttrArray
  }

  /** `expressed = attrArray[2]`: the attribute the map colours by. */
  const Expressed: string := "loss_usd"

  function RegionKey(r: Region): Option<JsVal> {
    if KeyName in r.props then Some(r.props[KeyName]) else None
  }

  function RowKey(row: Row): Option<string> {
    if KeyName in row then Some(row[KeyName]) else None
  }

  /**
   * `geojsonKey == csvKey`: two missing keys (undefined == undefined) match,
   * undefined never equals text, and two texts match when they are equal.
   */
  function KeysMatch(geoKey: Option<JsVal>, csvKey: Option<string>): (m: bool)
    ensures geoKey.None? && csvKey.None? ==> m
    ensures geoKey.None? != csvKey.None? ==> !m
    ensures geoKey.Some? && geoKey.value.Str? && csvKey.Some? ==> (m <==> geoKey.value.s == csvKey.value)
  {
    match (geoKey, csvKey)
    case (None, None) => true
    case (Some(Str(a)), Some(b)) => a == b
    case _ => false
  }

  /** `csvRegion[attr]`, with a missing field read as undefined, whose text parseFloat sees is "undefined". */
  function Field(row: Row, attr: string): string {
    if attr in row then row[attr] else "undefined"
  }

  /** The properties after `geojsonProps[attr] = parseFloat(csvRegion[attr])` for each attr of attrArray. */
  function Assign(props: map<string, JsVal>, row: Row): (r: map<string, JsVal>)
    ensures forall attr :: IsAttr(attr) ==> attr in r && r[attr] == Parsed(row, attr)
    ensures forall k :: !IsAttr(k) ==> (k in r <==> k in props) && (k in props ==> r[k] == props[k])
  {
    AssignEach(props, row, AttrArray)
  }

  /** The loop over attrs, in order: each attribute is overwritten with the row's parsed field. */
  function AssignEach(props: map<string, JsVal>, row: Row, attrs: seq<string>): (r: map<string, JsVal>)
    ensures forall attr :: attr in attrs ==> attr in r && r[attr] == Parsed(row, attr)
    ensures forall k :: k !in attrs ==> (k in r <==> k in props) && (k in props ==> r[k] == props[k])
  {
    if |attrs| == 0 then props
    else
      var last := attrs[|attrs| - 1];
      var before := AssignEach(props, row, attrs[..|attrs| - 1]);
      assert forall k :: k in attrs <==> k in attrs[..|attrs| - 1] || k == last;
      before[last := Parsed(row, last)]
  }

  /** `parseFloat(csvRegion[attr])`. */
  function Parsed(row: Row, attr: string): JsVal {
    NumVal(ParseFloat(Field(row, attr)))
  }

  /** One pass of the inner loop: every region whose key matches the row's gets the row's attributes. */
  function JoinRow(regions: seq<Region>, row: Row): (r: seq<Region>)
    ensures |r| == |regions|
    ensures forall a :: 0 <= a < |regions| ==>
              r[a] == if KeysMatch(RegionKey(regions[a]), RowKey(row)) then Region(Assign(regions[a].props, row))
                      else regions[a]
  {
    seq(|regions|, a requires 0 <= a < |regions| =>
          if KeysMatch(RegionKey(regions[a]), RowKey(row)) then Region(Assign(regions[a].props, row))
          else regions[a])
  }

  /** `joinData(regions, csvData)`: the rows applied in file order. */
  function JoinData(regions: seq<Region>, csv: seq<Row>): (r: seq<Region>)
    ensures |r| == |regions|
    ensures forall a :: 0 <= a < |regions| ==> AgreeOutsideAttrs(r[a].props, regions[a].props)
    ensures forall a :: 0 <= a < |regions| ==> RegionKey(r[a]) == RegionKey(regions[a])
  {
    if |csv| == 0 then regions
    else
      var before := JoinData(regions, csv[..|csv| - 1]);
      var r := JoinRow(before, csv[|csv| - 1]);
      assert !IsAttr(KeyName);
      r
  }

  /** Two property objects with the same keys and values except perhaps for the attributes of attrArray. */
  ghost predicate AgreeOutsideAttrs(p: map<string, JsVal>, q: map<string, JsVal>) {
    forall k :: !IsAttr(k) ==> (k in p <==> k in q) && (k in p ==> p[k] == q[k])
  }

  // ------------------------------------------------------------------
  // Properties of the join

  /** The row matches the region. */
  predicate Matches(region: Region, row: Row) {
    KeysMatch(RegionKey(region), RowKey(row))
  }

  /** A region no CSV row matches comes out unchanged. */
  lemma {:induction false} UnmatchedRegionUnchanged(regions: seq<Region>, csv: seq<Row>, a: nat)
    requires a < |regions|
    requires forall j :: 0 <= j < |csv| ==> !Matches(regions[a], csv[j])
    ensures JoinData(regions, csv)[a] == regions[a]
  {
    if |csv| > 0 {
      UnmatchedRegionUnchanged(regions, csv[..|csv| - 1], a);
      assert !Matches(regions[a], csv[|csv| - 1]);
    }
  }

  /** Assignment overwrites all of attrArray, so what was there before does not matter. */
  lemma AssignOverwrites(p: map<string, JsVal>, q: map<string, JsVal>, row: Row)
    requires AgreeOutsideAttrs(p, q)
    ensures Assign(p, row) == Assign(q, row)
  {
    var a, b := Assign(p, row), Assign(q, row);
    forall k
      ensures (k in a <==> k in b) && (k in a ==> a[k] == b[k])
    {
      if !IsAttr(k) {
        assert (k in p <==> k in q) && (k in p ==> p[k] == q[k]);
      }
    }
    SameEntries(a, b);
  }

  /** Maps with the same keys and the same value at each key are equal. */
  lemma SameEntries(a: map<string, JsVal>, b: map<string, JsVal>)
    requires forall k :: (k in a <==> k in b) && (k in a ==> a[k] == b[k])
    ensures a == b
  {
  }

  /**
   * With several matching rows the last one wins: a matched region ends
   * with its own properties plus the attributes of the last matching row.
   */
  lemma {:induction false} LastMatchWins(regions: seq<Region>, csv: seq<Row>, a: nat, j: nat)
    requires a < |regions| && j < |csv|
    requires Matches(regions[a], csv[j])
    requires forall k :: j < k < |csv| ==> !Matches(regions[a], csv[k])
    ensures JoinData(regions, csv)[a] == Region(Assign(regions[a].props, csv[j]))
  {
    var last := |csv| - 1;
    var before := JoinData(regions, csv[..last]);
    assert RegionKey(before[a]) == RegionKey(regions[a]);
    if j == last {
      AssignOverwrites(before[a].props, regions[a].props, csv[j]);
    } else {
      LastMatchWins(regions, csv[..last], a, j);
      assert !Matches(regions[a], csv[last]);
    }
  }

  /** Text that starts with a letter, such as a state name, is joined as NaN. */
  lemma StateNameBecomesNaN(props: map<string, JsVal>, row: Row, attr: string)
    requires IsAttr(attr)
    requires |Field(row, attr)| > 0 && ('A' <= Field(row, attr)[0] <= 'Z' || 'a' <= Field(row, attr)[0] <= 'z')
    ensures Assign(props, row)[attr] == NumVal(NaN)
  {
    ParseFloatOfWord(Field(row, attr));
  }

  /** A field the row lacks is joined as NaN, parseFloat(undefined). */
  lemma MissingFieldBecomesNaN(props: map<string, JsVal>, row: Row, attr: string)
    requires IsAttr(attr) && attr !in row
    ensures Assign(props, row)[attr] == NumVal(NaN)
  {
    ParseFloatOfWord("undefined");
  }

  // ------------------------------------------------------------------
  // The fill rule

  /** The fill of `setEnumerationUnits`: the colour scale for a truthy value, "#ccc" otherwise. */
  function Fill(value: Option<JsVal>, colorScale: JsVal -> string): (fill: string)
    ensures !JsTruthy(value) ==> fill == "#ccc"
    ensures JsTruthy(value) ==> fill == colorScale(value.value)
  {
    if JsTruthy(value) then colorScale(value.value) else "#ccc"
  }

  function ExpressedValue(r: Region): Option<JsVal> {
    if Expressed in r.props then Some(r.props[Expressed]) else None
  }

  /**
   * After the join, a region the last matching row gave a loss of n is
   * grey exactly when n is NaN or zero; otherwise it is coloured by n.
   */
  lemma FillAfterJoin(regions: seq<Region>, csv: seq<Row>, a: nat, j: nat, colorScale: JsVal -> string)
    requires a < |regions| && j < |csv|
    requires Matches(regions[a], csv[j])
    requires forall k :: j < k < |csv| ==> !Matches(regions[a], csv[k])
    ensures var n := ParseFloat(Field(csv[j], Expressed));
            var fill := Fill(ExpressedValue(JoinData(regions, csv)[a]), colorScale);
            && (fill == "#ccc" <==> !Truthy(n) || colorScale(NumVal(n)) == "#ccc")
            && (Truthy(n) ==> fill == colorScale(NumVal(n)))
  {
    LastMatchWins(regions, csv, a, j);
  }

  // ------------------------------------------------------------------
  // formatNumber

  /**
   * What `formatNumber(num)` prints: `scaled.toFixed(digits) + suffix`.
   * The decimal rendering of toFixed is not modelled.
   */
  datatype Formatted = Formatted(scaled: Num, digits: nat, suffix: string)

  /** The value one unit of a suffix stands for. */
  function UnitOf(suffix: string): real {
    if suffix == "M" then 1000000.0 else if suffix == "K" then 1000.0 else 1.0
  }

  /** `formatNumber`: millions from 1e6, thousands from 1e3, else the plain number. NaN compares false. */
  function FormatNumber(num: Num): (r: Formatted)
    ensures r.suffix == "M" <==> num.Fin? && num.v >= 1000000.0
    ensures r.suffix == "K" <==> num.Fin? && 1000.0 <= num.v < 1000000.0
    ensures r.suffix == "" <==> num.NaN? || num.v < 1000.0
    ensures r.digits == if r.suffix == "" then 0 else 1
    ensures num.NaN? <==> r.scaled.NaN?
    ensures num.Fin? ==> r.scaled.v * UnitOf(r.suffix) == num.v
    ensures r.suffix != "" ==> 1.0 <= r.scaled.v
    ensures r.suffix == "K" ==> r.scaled.v < 1000.0
  {
    if num.Fin? && num.v >= 1000000.0 then Formatted(Fin(num.v / 1000000.0), 1, "M")
    else if num.Fin? && num.v >= 1000.0 then Formatted(Fin(num.v / 1000.0), 1, "K")
    else Formatted(num, 0, "")
  }
}

=== FILE: city_table.dfy ===
/**
 * The city table of Chapter03/js/main.js and its debugged copy
 * unit-1/Chapter02/js/main_with_debug.js, which do the same: `addColumns`
 * adds a "City Size" cell to every table row, classifying each city by its
 * population, and the mouse-over handler of `addEvents` builds an
 * `rgb(a,b,c)` colour from three random draws.
 */
module CityTable {
  import opened Wrappers
  import opened JsNumber

  datatype City = City(name: string, population: Num)

  /** `cityPop`: the four Wisconsin cities the table lists. */
  const CityPop: seq<City> := [
    City("Madison", Fin(233209.0)),
    City("Milwaukee", Fin(594833.0)),
    City("Green Bay", Fin(104057.0)),
    City("Superior", Fin(27244.0))
  ]

  const SmallBelow: real := 100000.0
  const MediumBelow: real := 500000.0

  datatype Size = Small | Medium | Large

  /** The text `citySize` holds. */
  function SizeName(s: Size): string {
    match s
    case Small => "Small"
    case Medium => "Medium"
    case Large => "Large"
  }

  /** The order of the classes. */
  function Rank(s: Size): nat {
    match s
    case Small => 0
    case Medium => 1
    case Large => 2
  }

  /**
   * The size classifier of `addColumns`: below 100000 Small, below 500000
   * Medium, otherwise Large. NaN fails both comparisons and is Large.
   */
  function Classify(population: Num): (s: Size)
    ensures s == Small <==> population.Fin? && population.v < SmallBelow
    ensures s == Medium <==> population.Fin? && SmallBelow <= population.v < MediumBelow
    ensures s == Large <==> population.NaN? || MediumBelow <= population.v
  {
    if population.Fin? && population.v < SmallBelow then Small
    else if population.Fin? && population.v < MediumBelow then Medium
    else Large
  }

  /** A larger population never gets a smaller class. */
  lemma ClassifyMonotone(p: real, q: real)
    requires p <= q
    ensures Rank(Classify(Fin(p))) <= Rank(Classify(Fin(q)))
  {
  }

  /** The cell `addColumns` appends to row i: the header cell for row 0, else city i - 1's size. */
  function SizeCell(cityPop: seq<City>, i: nat): string
    requires i <= |cityPop|
  {
    if i == 0 then "<th>City Size</th>"
    else "<td>" + SizeName(Classify(cityPop[i - 1].population)) + "</td>"
  }

  /**
   * `addColumns(cityPop)` over the table's rows: the header row and one row
   * per city, in order; the result is the cell each row receives.
   */
  method AddColumns(cityPop: seq<City>) returns (cells: seq<string>)
    ensures |cells| == |cityPop| + 1
    ensures cells[0] == "<th>City Size</th>"
    ensures forall i :: 1 <= i <= |cityPop| ==>
              cells[i] == "<td>" + SizeName(Classify(cityPop[i - 1].population)) + "</td>"
  {
    cells := [];
    var i := 0;
    while i <= |cityPop|
      invariant 0 <= i <= |cityPop| + 1
      invariant |cells| == i
      invariant forall j :: 0 <= j < i ==> cells[j] == SizeCell(cityPop, j)
    {
      cells := cells + [SizeCell(cityPop, i)];
      i := i + 1;
    }
  }

  /** With the table's own data: Madison Medium, Milwaukee Large, Green Bay Medium, Superior Small. */
  lemma FixedDataSizes()
    ensures Classify(CityPop[0].population) == Medium
    ensures Classify(CityPop[1].population) == Large
    ensures Classify(CityPop[2].population) == Medium
    ensures Classify(CityPop[3].population) == Small
    ensures SizeCell(CityPop, 1) == "<td>Medium</td>"
    ensures SizeCell(CityPop, 4) == "<td>Small</td>"
  {
  }

  // ------------------------------------------------------------------
  // The colour string

  /** `Math.round`: the nearest integer, halves rounded up. */
  function JsRound(y: real): (r: int)
    ensures y - 0.5 < r as real <= y + 0.5
  {
    (y + 0.5).Floor
  }

  /** `Math.round(Math.random() * 255)` for a draw in [0, 1): an integer from 0 to 255. */
  function Channel(draw: real): (c: nat)
    requires 0.0 <= draw < 1.0
    ensures c <= 255
  {
    JsRound(draw * 255.0)
  }

  /** `"rgb(" + a + "," + b + "," + c + ")"`. */
  function RgbText(a: nat, b: nat, c: nat): string {
    "rgb(" + NatToString(a) + "," + NatToString(b) + "," + NatToString(c) + ")"
  }

  /** The colour text after the first i turns of the loop: each number followed by "," or, last, by ")". */
  function ColorPrefix(channels: seq<nat>, i: nat): string
    requires i <= |channels|
  {
    if i == 0 then "rgb("
    else ColorPrefix(channels, i - 1) + NatToString(channels[i - 1]) + (if i - 1 < 2 then "," else ")")
  }

  /** The mouse-over handler's loop, with the three `Math.random()` draws as a parameter. */
  method BuildColor(draws: seq<real>) returns (color: string)
    requires |draws| == 3
    requires forall i :: 0 <= i < 3 ==> 0.0 <= draws[i] < 1.0
    ensures color == RgbText(Channel(draws[0]), Channel(draws[1]), Channel(draws[2]))
  {
    var channels := [Channel(draws[0]), Channel(draws[1]), Channel(draws[2])];
    color := "rgb(";
    var i := 0;
    while i < 3
      invariant 0 <= i <= 3
      invariant color == ColorPrefix(channels, i)
    {
      var random := Channel(draws[i]);
      color := color + NatToString(random);
      if i < 2 {
        color := color + ",";
      } else {
        color := color + ")";
      }
      i := i + 1;
    }
    assert ColorPrefix(channels, 1) == "rgb(" + NatToString(channels[0]) + ",";
    assert ColorPrefix(channels, 2) == ColorPrefix(channels, 1) + NatToString(channels[1]) + ",";
    assert ColorPrefix(channels, 3) == ColorPrefix(channels, 2) + NatToString(channels[2]) + ")";
  }

  // ------------------------------------------------------------------
  // Reading the colour back

  /** The decimal number at the start of s and the text after it, if s starts with a digit. */
  function ReadNumber(s: string): Option<(nat, string)> {
    var k := DigitRun(s);
    if k == 0 then None else Some((DigitsValue(s[..k]), s[k..]))
  }

  /** A number followed by the character sep, and the text after sep. */
  function ReadThen(s: string, sep: char): Option<(nat, string)> {
    match ReadNumber(s)
    case None => None
    case Some((n, r)) => if |r| > 0 && r[0] == sep then Some((n, r[1..])) else None
  }

  /** The CSS text `rgb(a,b,c)` read back into its three numbers. */
  function ParseRgb(s: string): Option<(nat, nat, nat)> {
    if |s| < 4 || s[..4] != "rgb(" then None else ParseChannels(s[4..])
  }

  /** The `a,b,c)` part of a colour text. */
  function ParseChannels(t: string): Option<(nat, nat, nat)> {
      match ReadThen(t, ',')
      case None => None
      case Some((a, r1)) =>
        match ReadThen(r1, ',')
        case None => None
        case Some((b, r2)) =>
          match ReadThen(r2, ')')
          case None => None
          case Some((c, r3)) => if r3 == [] then Some((a, b, c)) else None
  }

  /** A numeral, then sep (not a digit), then rest reads back as the number and rest. */
  lemma ReadNumeral(n: nat, sep: char, rest: string)
    requires !IsDigit(sep)
    ensures ReadThen(NatToString(n) + ([sep] + rest), sep) == Some((n, rest))
  {
    DigitRunOfNumeral(NatToString(n), [sep] + rest);
    assert ([sep] + rest)[1..] == rest;
  }

  /** The colour text names its three numbers: reading it back gives them again. */
  lemma RgbRoundTrip(a: nat, b: nat, c: nat)
    ensures ParseRgb(RgbText(a, b, c)) == Some((a, b, c))
  {
    var s := RgbText(a, b, c);
    var t := ChannelsText(a, b, c);
    assert s == "rgb(" + t;
    assert s[..4] == "rgb(" && s[4..] == t;
    ChannelsRoundTrip(a, b, c);
  }

  /** The text after "rgb(": `a,b,c)`. */
  function ChannelsText(a: nat, b: nat, c: nat): string {
    NatToString(a) + ([','] + (NatToString(b) + ([','] + (NatToString(c) + ([')'] + [])))))
  }

  lemma ChannelsRoundTrip(a: nat, b: nat, c: nat)
    ensures ParseChannels(ChannelsText(a, b, c)) == Some((a, b, c))
  {
    var tailC := NatToString(c) + ([')'] + []);
    var tailB := NatToString(b) + ([','] + tailC);
    ReadNumeral(a, ',', tailB);
    ReadNumeral(b, ',', tailC);
    ReadNumeral(c, ')', []);
  }

  /** Every colour the handler builds has three channels from 0 to 255, and they can be read back from it. */
  lemma BuiltColorChannels(draws: seq<real>)
    requires |draws| == 3
    requires forall i :: 0 <= i < 3 ==> 0.0 <= draws[i] < 1.0
    ensures var parsed := ParseRgb(RgbText(Channel(draws[0]), Channel(draws[1]), Channel(draws[2])));
            parsed.Some? && parsed.value.0 <= 255 && parsed.value.1 <= 255 && parsed.value.2 <= 255
  {
    RgbRoundTrip(Channel(draws[0]), Channel(draws[1]), Channel(draws[2]));
  }
}

=== FILE: geojson.dfy ===
/**
 * GeoJSON objects (RFC 7946) and the coordinate reprojection of
 * unit-2/js/wisdot-disadvantaged-business.js: `reprojectCoords` sends one
 * position through a projection and keeps its first two components, and
 * `traverse` applies it to every position of a GeoJSON tree, at the nesting
 * depth each geometry type stores its positions.
 *
 * The projection (proj4 from EPSG:3071 to EPSG:4326) is a parameter: any
 * function from an (x, y) pair to an (x, y) pair.
 */
module GeoJson {

  /**
   * A position (section 3.1.1 of RFC 7946): at least two numbers, easting
   * and northing first, then any further elements such as an altitude.
   */
  datatype Position = Position(x: real, y: real, rest: seq<real>)

  type Projection = (real, real) -> (real, real)

  /**
   * The nodes `traverse` distinguishes by their `type` member: the
   * geometries of RFC 7946, sections 3.1.2 to 3.1.8, Feature (RFC 7946,
   * section 3.2), FeatureCollection (RFC 7946, section 3.3), a missing node
   * (null or undefined) and any object with another `type`. P is the type of a feature's properties.
   */
  datatype Node<P> =
    | Null
    | FeatureCollection(features: seq<Node<P>>)
    | Feature(geometry: Node<P>, properties: P)
    | GeometryCollection(geometries: seq<Node<P>>)
    | Point(coordinates: Position)
    | MultiPoint(points: seq<Position>)
    | LineString(line: seq<Position>)
    | MultiLineString(lines: seq<seq<Position>>)
    | Polygon(rings: seq<seq<Position>>)
    | MultiPolygon(polygons: seq<seq<seq<Position>>>)
    | Other(typeName: string)

  // ------------------------------------------------------------------
  // Operations

  /** `reprojectCoords`: the projected first two components; later components are dropped. */
  function Reproject(proj: Projection, c: Position): (r: Position)
    ensures r.rest == []
    ensures (r.x, r.y) == proj(c.x, c.y)
  {
    var p := proj(c.x, c.y);
    Position(p.0, p.1, [])
  }

  /** `coordinates.map(f)`. */
  function MapSeq(f: Position -> Position, ps: seq<Position>): (r: seq<Position>)
    ensures |r| == |ps|
    ensures forall i :: 0 <= i < |ps| ==> r[i] == f(ps[i])
  {
    seq(|ps|, i requires 0 <= i < |ps| => f(ps[i]))
  }

  /** `lines.map(line => line.map(f))`. */
  function MapSeq2(f: Position -> Position, ls: seq<seq<Position>>): (r: seq<seq<Position>>)
    ensures |r| == |ls|
    ensures forall i :: 0 <= i < |ls| ==> r[i] == MapSeq(f, ls[i])
  {
    seq(|ls|, i requires 0 <= i < |ls| => MapSeq(f, ls[i]))
  }

  /** `polygons.map(polygon => polygon.map(ring => ring.map(f)))`. */
  function MapSeq3(f: Position -> Position, pss: seq<seq<seq<Position>>>): (r: seq<seq<seq<Position>>>)
    ensures |r| == |pss|
    ensures forall i :: 0 <= i < |pss| ==> r[i] == MapSeq2(f, pss[i])
  {
    seq(|pss|, i requires 0 <= i < |pss| => MapSeq2(f, pss[i]))
  }

  /**
   * The walk of `traverse` with any per-position function f: collections
   * visit every member in order, a Feature only its geometry, and each
   * geometry maps f over its positions at the depth its type stores them.
   * Only position values change: the skeleton (SameShape) is kept.
   */
  function MapPositions<P>(f: Position -> Position, n: Node<P>): (r: Node<P>)
    ensures SameShape(n, r)
    decreases n
  {
    match n
    case Null => Null
    case FeatureCollection(fs) =>
      FeatureCollection(seq(|fs|, i requires 0 <= i < |fs| => MapPositions(f, fs[i])))
    case Feature(g, props) => Feature(MapPositions(f, g), props)
    case GeometryCollection(gs) =>
      GeometryCollection(seq(|gs|, i requires 0 <= i < |gs| => MapPositions(f, gs[i])))
    case Point(c) => Point(f(c))
    case MultiPoint(ps) => MultiPoint(MapSeq(f, ps))
    case LineString(ps) => LineString(MapSeq(f, ps))
    case MultiLineString(ls) => MultiLineString(MapSeq2(f, ls))
    case Polygon(rs) => Polygon(MapSeq2(f, rs))
    case MultiPolygon(pss) => MultiPolygon(MapSeq3(f, pss))
    case Other(t) => Other(t)
  }

  /**
   * `traverse(node)`: every position of the tree reprojected. Feature
   * properties, member order, the length of every coordinate array and null
   * or unrecognised nodes stay as they were; the positions of the result are
   * the input's, in document order, each reprojected once to two components.
   */
  function Traverse<P>(proj: Projection, n: Node<P>): (r: Node<P>)
    ensures SameShape(n, r)
    ensures |Positions(r)| == |Positions(n)|
    ensures forall i :: 0 <= i < |Positions(r)| ==> Positions(r)[i] == Reproject(proj, Positions(n)[i])
    ensures forall i :: 0 <= i < |Positions(r)| ==> Positions(r)[i].rest == []
  {
    var f := c => Reproject(proj, c);
    MapPositionsInOrder(f, n);
    MapPositions(f, n)
  }

  // ------------------------------------------------------------------
  // An independent description of the result: the same skeleton, and the
  // same positions in the same order, each reprojected.

  /** Two sequences of lines (or rings) have the same length and the same line lengths. */
  predicate SameLengths2(a: seq<seq<Position>>, b: seq<seq<Position>>) {
    |a| == |b| && forall i :: 0 <= i < |a| ==> |a[i]| == |b[i]|
  }

  /**
   * a and b agree in everything but the values of their positions: the same
   * types at the same places, the same number of members and positions at
   * every nesting level, the same feature properties, the same untouched
   * nodes.
   */
  predicate SameShape<P(==)>(a: Node<P>, b: Node<P>)
    decreases a
  {
    match a
    case Null => b.Null?
    case FeatureCollection(fs) =>
      b.FeatureCollection? && |b.features| == |fs|
      && forall i :: 0 <= i < |fs| ==> SameShape(fs[i], b.features[i])
    case Feature(g, props) => b.Feature? && b.properties == props && SameShape(g, b.geometry)
    case GeometryCollection(gs) =>
      b.GeometryCollection? && |b.geometries| == |gs|
      && forall i :: 0 <= i < |gs| ==> SameShape(gs[i], b.geometries[i])
    case Point(_) => b.Point?
    case MultiPoint(ps) => b.MultiPoint? && |b.points| == |ps|
    case LineString(ps) => b.LineString? && |b.line| == |ps|
    case MultiLineString(ls) => b.MultiLineString? && SameLengths2(ls, b.lines)
    case Polygon(rs) => b.Polygon? && SameLengths2(rs, b.rings)
    case MultiPolygon(pss) =>
      b.MultiPolygon? && |b.polygons| == |pss|
      && forall i :: 0 <= i < |pss| ==> SameLengths2(pss[i], b.polygons[i])
    case Other(_) => b == a
  }

  /** The pieces one after the other. */
  function Concat(ss: seq<seq<Position>>): (r: seq<Position>)
  {
    if |ss| == 0 then [] else ss[0] + Concat(ss[1..])
  }

  /** Every position of the tree, in document order. */
  function Positions<P>(n: Node<P>): seq<Position>
    decreases n
  {
    match n
    case Null => []
    case FeatureCollection(fs) => Concat(seq(|fs|, i requires 0 <= i < |fs| => Positions(fs[i])))
    case Feature(g, _) => Positions(g)
    case GeometryCollection(gs) => Concat(seq(|gs|, i requires 0 <= i < |gs| => Positions(gs[i])))
    case Point(c) => [c]
    case MultiPoint(ps) => ps
    case LineString(ps) => ps
    case MultiLineString(ls) => Concat(ls)
    case Polygon(rs) => Concat(rs)
    case MultiPolygon(pss) => Concat(seq(|pss|, i requires 0 <= i < |pss| => Concat(pss[i])))
    case Other(_) => []
  }

  // ------------------------------------------------------------------
  // Properties

  /** Mapping a concatenation is concatenating the mapped pieces. */
  lemma {:induction false} MapConcat(f: Position -> Position, ss: seq<seq<Position>>)
    ensures Concat(MapSeq2(f, ss)) == MapSeq(f, Concat(ss))
  {
    if |ss| > 0 {
      MapConcat(f, ss[1..]);
      assert MapSeq2(f, ss)[1..] == MapSeq2(f, ss[1..]);
    }
  }

  /** The walk visits the positions in document order and applies f to each exactly once. */
  lemma {:induction false} MapPositionsInOrder<P>(f: Position -> Position, n: Node<P>)
    ensures Positions(MapPositions(f, n)) == MapSeq(f, Positions(n))
    decreases n
  {
    match n
    case Null =>
    case FeatureCollection(fs) =>
      var mapped := seq(|fs|, i requires 0 <= i < |fs| => MapPositions(f, fs[i]));
      var pieces := seq(|fs|, i requires 0 <= i < |fs| => Positions(fs[i]));
      forall i | 0 <= i < |fs|
        ensures Positions(mapped[i]) == MapSeq(f, pieces[i])
      {
        MapPositionsInOrder(f, fs[i]);
      }
      assert seq(|mapped|, i requires 0 <= i < |mapped| => Positions(mapped[i])) == MapSeq2(f, pieces);
      MapConcat(f, pieces);
    case Feature(g, _) => MapPositionsInOrder(f, g);
    case GeometryCollection(gs) =>
      var mapped := seq(|gs|, i requires 0 <= i < |gs| => MapPositions(f, gs[i]));
      var pieces := seq(|gs|, i requires 0 <= i < |gs| => Positions(gs[i]));
      forall i | 0 <= i < |gs|
        ensures Positions(mapped[i]) == MapSeq(f, pieces[i])
      {
        MapPositionsInOrder(f, gs[i]);
      }
      assert seq(|mapped|, i requires 0 <= i < |mapped| => Positions(mapped[i])) == MapSeq2(f, pieces);
      MapConcat(f, pieces);
    case Point(_) =>
    case MultiPoint(_) =>
    case LineString(_) =>
    case MultiLineString(ls) => MapConcat(f, ls);
    case Polygon(rs) => MapConcat(f, rs);
    case MultiPolygon(pss) =>
      var mapped := MapSeq3(f, pss);
      var pieces := seq(|pss|, i requires 0 <= i < |pss| => Concat(pss[i]));
      forall i | 0 <= i < |pss|
        ensures Concat(mapped[i]) == MapSeq(f, pieces[i])
      {
        MapConcat(f, pss[i]);
      }
      assert seq(|mapped|, i requires 0 <= i < |mapped| => Concat(mapped[i])) == MapSeq2(f, pieces);
      MapConcat(f, pieces);
    case Other(_) =>
  }

  /** Two walks in a row are one walk with the composed function. */
  lemma {:induction false} MapCompose<P>(f: Position -> Position, g: Position -> Position,
                                         h: Position -> Position, n: Node<P>)
    requires forall c :: h(c) == g(f(c))
    ensures MapPositions(g, MapPositions(f, n)) == MapPositions(h, n)
    decreases n
  {
    match n
    case FeatureCollection(fs) =>
      forall i | 0 <= i < |fs|
        ensures MapPositions(g, MapPositions(f, fs[i])) == MapPositions(h, fs[i])
      {
        MapCompose(f, g, h, fs[i]);
      }
    case Feature(geo, _) => MapCompose(f, g, h, geo);
    case GeometryCollection(gs) =>
      forall i | 0 <= i < |gs|
        ensures MapPositions(g, MapPositions(f, gs[i])) == MapPositions(h, gs[i])
      {
        MapCompose(f, g, h, gs[i]);
      }
    case MultiPoint(ps) => MapSeqCompose(f, g, h, ps);
    case LineString(ps) => MapSeqCompose(f, g, h, ps);
    case MultiLineString(ls) =>
      forall i | 0 <= i < |ls|
        ensures MapSeq(g, MapSeq(f, ls[i])) == MapSeq(h, ls[i])
      {
        MapSeqCompose(f, g, h, ls[i]);
      }
    case Polygon(rs) =>
      forall i | 0 <= i < |rs|
        ensures MapSeq(g, MapSeq(f, rs[i])) == MapSeq(h, rs[i])
      {
        MapSeqCompose(f, g, h, rs[i]);
      }
    case MultiPolygon(pss) =>
      forall i, j | 0 <= i < |pss| && 0 <= j < |pss[i]|
        ensures MapSeq(g, MapSeq(f, pss[i][j])) == MapSeq(h, pss[i][j])
      {
        MapSeqCompose(f, g, h, pss[i][j]);
      }
      forall i | 0 <= i < |pss|
        ensures MapSeq2(g, MapSeq2(f, pss[i])) == MapSeq2(h, pss[i])
      {
      }
    case _ =>
  }

  lemma MapSeqCompose(f: Position -> Position, g: Position -> Position,
                      h: Position -> Position, ps: seq<Position>)
    requires forall c :: h(c) == g(f(c))
    ensures MapSeq(g, MapSeq(f, ps)) == MapSeq(h, ps)
  {
  }

  /** A position cut down to its first two components. */
  function Flat(c: Position): (r: Position)
    ensures r.rest == [] && r.x == c.x && r.y == c.y
  {
    Position(c.x, c.y, [])
  }

  /**
   * Reprojecting with the inverse projection gives back the original tree,
   * except that positions lose any component after the second.
   */
  lemma TraverseRoundTrip<P>(proj: Projection, inverse: Projection, n: Node<P>)
    requires forall x, y :: inverse(proj(x, y).0, proj(x, y).1) == (x, y)
    ensures Traverse(inverse, Traverse(proj, n)) == MapPositions(Flat, n)
  {
    var f := c => Reproject(proj, c);
    var g := c => Reproject(inverse, c);
    forall c: Position
      ensures Flat(c) == g(f(c))
    {
      var p := proj(c.x, c.y);
      assert inverse(p.0, p.1) == (c.x, c.y);
    }
    MapCompose(f, g, Flat, n);
  }
}

=== FILE: js_number.dfy ===
/**
 * JavaScript numbers, and the two conversions between numbers and text that
 * the mapping scripts rely on: `String(n)` for the small non-negative integers
 * they write (years, colour channels) and the global `parseFloat`.
 *
 * A number is NaN or a finite value. Finite values are exact reals: IEEE-754
 * rounding, the infinities and negative zero are not represented.
 */
module JsNumber {
  import opened Wrappers

  datatype Num = NaN | Fin(v: real)

  /** ToBoolean on a number: NaN and zero are falsy, every other number is truthy. */
  predicate Truthy(n: Num) {
    n.Fin? && n.v != 0.0
  }

  // ------------------------------------------------------------------
  // Decimal digits and String(n)

  predicate IsDigit(c: char) {
    '0' <= c <= '9'
  }

  predicate AllDigits(s: string) {
    forall i :: 0 <= i < |s| ==> IsDigit(s[i])
  }

  function DigitValue(c: char): (d: nat)
    requires IsDigit(c)
    ensures d < 10
  {
    c as int - '0' as int
  }

  function DigitChar(d: nat): (c: char)
    requires d < 10
    ensures IsDigit(c) && DigitValue(c) == d
  {
    (d + '0' as int) as char
  }

  /** The value of a numeral read most significant digit first; the empty numeral reads as 0. */
  function DigitsValue(s: string): nat
    requires AllDigits(s)
  {
    if |s| == 0 then 0 else 10 * DigitsValue(s[..|s| - 1]) + DigitValue(s[|s| - 1])
  }

  function Pow10(e: nat): (p: nat)
    ensures p >= 1
  {
    if e == 0 then 1 else 10 * Pow10(e - 1)
  }

  /**
   * `String(n)` for a non-negative integer below 10^21: its shortest decimal
   * numeral. The scripts only write years and 0..255 colour channels this
   * way; from 10^21 on JavaScript switches to exponent form ("1e+21"), which
   * is not modelled.
   */
  function NatToString(n: nat): (s: string)
    ensures 0 < |s| && AllDigits(s)
    ensures s[0] == '0' ==> |s| == 1
    ensures DigitsValue(s) == n
  {
    if n < 10 then [DigitChar(n)]
    else
      var s := NatToString(n / 10) + [DigitChar(n % 10)];
      assert s[..|s| - 1] == NatToString(n / 10);
      s
  }

  /** Distinct numbers have distinct numerals. */
  lemma NatToStringInjective()
    ensures forall a: nat, b: nat :: NatToString(a) == NatToString(b) ==> a == b
  {
    forall a: nat, b: nat | NatToString(a) == NatToString(b)
      ensures a == b
    {
      assert DigitsValue(NatToString(a)) == DigitsValue(NatToString(b));
    }
  }

  /** A numeral whose value is zero is made of zeros only. */
  lemma {:induction false} ZeroNumeral(s: string)
    requires AllDigits(s) && DigitsValue(s) == 0
    ensures forall i :: 0 <= i < |s| ==> s[i] == '0'
  {
    if |s| > 0 {
      ZeroNumeral(s[..|s| - 1]);
      forall i | 0 <= i < |s|
        ensures s[i] == '0'
      {
        if i < |s| - 1 {
          assert s[i] == s[..|s| - 1][i];
        }
      }
    }
  }

  /** Every canonical numeral (no leading zero unless it is "0") is the numeral NatToString gives its value. */
  lemma {:induction false} CanonicalNumeral(s: string)
    requires 0 < |s| && AllDigits(s)
    requires s[0] == '0' ==> |s| == 1
    ensures NatToString(DigitsValue(s)) == s
  {
    var p := s[..|s| - 1];
    var d := DigitValue(s[|s| - 1]);
    assert DigitChar(d) == s[|s| - 1];
    if |p| == 0 {
      assert s == [s[0]];
    } else {
      if DigitsValue(p) == 0 {
        ZeroNumeral(p);
        assert false;
      }
      CanonicalNumeral(p);
      var n := DigitsValue(s);
      assert n == 10 * DigitsValue(p) + d;
      assert n / 10 == DigitsValue(p) && n % 10 == d;
      assert s == p + [s[|s| - 1]];
    }
  }

  /** Length of the longest prefix of s made of digits. */
  function DigitRun(s: string): (k: nat)
    ensures k <= |s| && AllDigits(s[..k])
    ensures k < |s| ==> !IsDigit(s[k])
  {
    if |s| == 0 || !IsDigit(s[0]) then 0
    else
      var k := 1 + DigitRun(s[1..]);
      assert s[..k] == [s[0]] + s[1..][..k - 1];
      k
  }

  /** A digit run followed by a non-digit (or by nothing) is exactly the run of the whole text. */
  lemma {:induction false} DigitRunOfNumeral(d: string, rest: string)
    requires AllDigits(d)
    requires rest == [] || !IsDigit(rest[0])
    ensures DigitRun(d + rest) == |d|
    ensures (d + rest)[..|d|] == d && (d + rest)[|d|..] == rest
  {
    if |d| > 0 {
      assert (d + rest)[1..] == d[1..] + rest;
      DigitRunOfNumeral(d[1..], rest);
    } else {
      assert d + rest == rest;
    }
  }

  // ------------------------------------------------------------------
  // parseFloat

  /** StrWhiteSpaceChar of ECMAScript: the white space and line terminator characters. */
  predicate IsJsSpace(c: char) {
    || c == '\t' || c == '\n' || c == '\U{B}' || c == '\U{C}' || c == '\r'
    || c == ' ' || c == '\U{A0}' || c == '\U{1680}'
    || ('\U{2000}' <= c <= '\U{200A}')
    || c == '\U{2028}' || c == '\U{2029}' || c == '\U{202F}' || c == '\U{205F}'
    || c == '\U{3000}' || c == '\U{FEFF}'
  }

  /** Length of the leading white space of s. */
  function SpaceRun(s: string): (k: nat)
    ensures k <= |s|
    ensures forall i :: 0 <= i < k ==> IsJsSpace(s[i])
    ensures k < |s| ==> !IsJsSpace(s[k])
  {
    if |s| == 0 || !IsJsSpace(s[0]) then 0 else 1 + SpaceRun(s[1..])
  }

  /** u starts with a digit, or with a decimal point followed by a digit. */
  predicate BeginsDecimal(u: string) {
    |u| > 0 && (IsDigit(u[0]) || (u[0] == '.' && |u| > 1 && IsDigit(u[1])))
  }

  /** x times ten to the power e. */
  function Scale10(x: real, e: int): (r: real)
    ensures x >= 0.0 ==> r >= 0.0
  {
    if e >= 0 then x * Pow10(e) as real else x / Pow10(-e) as real
  }

  /** The exponent of an `e`/`E` exponent part at the start of s; 0 when s does not start with a complete one. */
  function Exponent(s: string): int
  {
    if |s| == 0 || (s[0] != 'e' && s[0] != 'E') then 0
    else
      var signed := |s| > 1 && (s[1] == '+' || s[1] == '-');
      var digits := if signed then s[2..] else s[1..];
      var k := DigitRun(digits);
      if k == 0 then 0
      else if signed && s[1] == '-' then -(DigitsValue(digits[..k]) as int)
      else DigitsValue(digits[..k])
  }

  /**
   * The value of the longest unsigned decimal literal at the start of u:
   * integer digits, an optional fraction and an optional exponent.
   */
  function UnsignedPrefix(u: string): (r: Option<real>)
    ensures r.None? <==> !BeginsDecimal(u)
  {
    var k := DigitRun(u);
    var afterInt := u[k..];
    var hasPoint := |afterInt| > 0 && afterInt[0] == '.';
    var afterPoint := if hasPoint then afterInt[1..] else "";
    var m := DigitRun(afterPoint);
    assert k == 0 ==> afterInt == u;
    assert hasPoint && k == 0 ==> afterPoint == u[1..];
    if k == 0 && m == 0 then None
    else
      var fraction := afterPoint[..m];
      var afterFraction := if hasPoint then afterPoint[m..] else afterInt;
      var mantissa := DigitsValue(u[..k]) as real + DigitsValue(fraction) as real / Pow10(m) as real;
      Some(Scale10(mantissa, Exponent(afterFraction)))
  }

  /** s without its leading white space. */
  function Trimmed(s: string): string {
    s[SpaceRun(s)..]
  }

  /** t without one leading sign character. */
  function Unsigned(t: string): string {
    if |t| > 0 && (t[0] == '+' || t[0] == '-') then t[1..] else t
  }

  /**
   * The global `parseFloat`: skip leading white space, read an optional sign,
   * then the longest decimal literal; NaN when there is none. Text after the
   * literal is ignored.
   */
  function ParseFloat(s: string): (r: Num)
    ensures r.NaN? <==> !BeginsDecimal(Unsigned(Trimmed(s)))
  {
    var t := Trimmed(s);
    var negative := |t| > 0 && t[0] == '-';
    match UnsignedPrefix(Unsigned(t))
    case None => NaN
    case Some(x) => Fin(if negative then -x else x)
  }

  /** Text that does not start (after white space and a sign) with a digit or ".digit" reads as NaN. */
  lemma ParseFloatOfWord(s: string)
    requires |s| > 0 && !IsDigit(s[0]) && !IsJsSpace(s[0])
    requires s[0] != '.' && s[0] != '+' && s[0] != '-'
    ensures ParseFloat(s) == NaN
  {
    assert SpaceRun(s) == 0;
  }

  /** parseFloat reads back the numeral String(n) writes, whatever non-numeric text follows it. */
  lemma ParseFloatOfNumeral(n: nat, rest: string)
    requires rest == [] || (!IsDigit(rest[0]) && rest[0] != '.' && rest[0] != 'e' && rest[0] != 'E')
    ensures ParseFloat(NatToString(n) + rest) == Fin(n as real)
  {
    var d := NatToString(n);
    var s := d + rest;
    assert s[0] == d[0];
    assert SpaceRun(s) == 0;
    assert s[0..] == s;
    DigitRunOfNumeral(d, rest);
    assert UnsignedPrefix(s) == Some(n as real);
  }

  /** Concatenation regrouped to the right. */
  lemma Regroup(a: string, b: string, c: string, e: string)
    ensures a + b + c + e == a + (b + (c + e))
  {
    assert |a + b + c + e| == |a + (b + (c + e))|;
    forall i | 0 <= i < |a + b + c + e|
      ensures (a + b + c + e)[i] == (a + (b + (c + e)))[i]
    {
    }
  }

  /** parseFloat of integer digits, a point, fraction digits, and then no exponent. */
  lemma {:induction false} ParseFloatOfDigits(d: string, n: nat, fraction: string, rest: string)
    requires 0 < |d| && AllDigits(d) && DigitsValue(d) == n && AllDigits(fraction)
    requires rest == [] || (!IsDigit(rest[0]) && rest[0] != 'e' && rest[0] != 'E')
    ensures ParseFloat(d + "." + fraction + rest)
            == Fin(n as real + DigitsValue(fraction) as real / Pow10(|fraction|) as real)
  {
    Regroup(d, ".", fraction, rest);
    var tail := fraction + rest;
    var u := d + ("." + tail);
    assert u[0] == d[0];
    assert SpaceRun(u) == 0;
    assert Trimmed(u) == u && Unsigned(u) == u;
    DigitRunOfNumeral(d, "." + tail);
    assert DigitRun(u) == |d| && u[..|d|] == d && u[|d|..] == "." + tail;
    assert ("." + tail)[1..] == tail;
    DigitRunOfNumeral(fraction, rest);
    assert DigitRun(tail) == |fraction| && tail[..|fraction|] == fraction && tail[|fraction|..] == rest;
    assert Exponent(rest) == 0;
    var x := DigitsValue(d) as real + DigitsValue(fraction) as real / Pow10(|fraction|) as real;
    assert Scale10(x, 0) == x;
  }

  /**
   * parseFloat reads a decimal fraction such as "12.5": the integer numeral,
   * then the fraction digits as that many tenths, hundredths, …, whatever
   * text other than digits or an exponent follows.
   */
  lemma ParseFloatOfDecimal(n: nat, fraction: string, rest: string)
    requires AllDigits(fraction)
    requires rest == [] || (!IsDigit(rest[0]) && rest[0] != 'e' && rest[0] != 'E')
    ensures ParseFloat(NatToString(n) + "." + fraction + rest)
            == Fin(n as real + DigitsValue(fraction) as real / Pow10(|fraction|) as real)
  {
    ParseFloatOfDigits(NatToString(n), n, fraction, rest);
  }

  /** A minus sign in front of a numeral negates the value parseFloat reads. */
  lemma ParseFloatOfNegativeNumeral(n: nat)
    ensures ParseFloat("-" + NatToString(n)) == Fin(-(n as real))
  {
    var d := NatToString(n);
    var s := "-" + d;
    assert SpaceRun(s) == 0;
    assert s[0..] == s && s[1..] == d;
    DigitRunOfNumeral(d, []);
    assert d + [] == d;
    assert UnsignedPrefix(d) == Some(n as real);
  }
}

=== FILE: min_scan.dfy ===
/**
 * `calculateMinValue` of unit-2/js/adaptedTutorial.js: collect every
 * city's population for the years 1985, 1990, ..., 2015 and take
 * `Math.min` of them all.
 */
module MegaCities {
  import opened JsNumber
  import opened Arith

  /** A city feature: its `properties`, numbers keyed by attribute name. */
  datatype City = City(props: map<string, Num>)

  const FirstYear: nat := 1985
  const LastYear: nat := 2015
  const Step: nat := 5

  /** The number of years the loop visits. */
  const YearCount: nat := 7

  /** The attribute holding a year's population: `"Pop_" + String(year)`. */
  function PopKey(year: nat): string {
    "Pop_" + NatToString(year)
  }

  /** `city.properties["Pop_" + year]`; a missing attribute is undefined, which Math.min reads as NaN. */
  function PopValue(city: City, year: nat): Num {
    var key := PopKey(year);
    if key in city.props then city.props[key] else NaN
  }

  /** The k-th year of the loop. */
  function YearAt(k: nat): (year: nat)
    ensures FirstYear <= year
    ensures k < YearCount ==> year <= LastYear
  {
    FirstYear + Step * k
  }

  /** One city's values, in year order. */
  function CityValues(city: City): (vs: seq<Num>)
    ensures |vs| == YearCount
  {
    seq(YearCount, k requires 0 <= k < YearCount => PopValue(city, YearAt(k)))
  }

  /** The values `allValues` receives: each city's seven values, city after city. */
  function AllValues(cities: seq<City>): (vs: seq<Num>)
  {
    if |cities| == 0 then []
    else AllValues(cities[..|cities| - 1]) + CityValues(cities[|cities| - 1])
  }

  /** There are seven values per city, and value i is city i / 7's population in year i % 7. */
  lemma {:induction false} AllValuesLayout(cities: seq<City>)
    ensures |AllValues(cities)| == YearCount * |cities|
    ensures forall i :: 0 <= i < |AllValues(cities)| ==>
              i / YearCount < |cities| && AllValues(cities)[i] == CityValues(cities[i / YearCount])[i % YearCount]
  {
    if |cities| > 0 {
      var n := |cities| - 1;
      AllValuesLayout(cities[..n]);
      forall i | 0 <= i < |AllValues(cities)|
        ensures i / YearCount < |cities| && AllValues(cities)[i] == CityValues(cities[i / YearCount])[i % YearCount]
      {
        if i < YearCount * n {
          assert cities[..n][i / YearCount] == cities[i / YearCount];
        } else {
          DivModUnique(i, YearCount, n, i - YearCount * n);
        }
      }
    }
  }

  /** Value 7c + k is city c's population in year k. */
  lemma ValueOf(cities: seq<City>, c: nat, k: nat)
    requires c < |cities| && k < YearCount
    ensures YearCount * c + k < |AllValues(cities)|
    ensures AllValues(cities)[YearCount * c + k] == PopValue(cities[c], YearAt(k))
  {
    AllValuesLayout(cities);
    DivModUnique(YearCount * c + k, YearCount, c, k);
    MultipleBound(|cities| - c, YearCount);
    assert YearCount * |cities| == YearCount * c + YearCount * (|cities| - c);
  }

  /** The loops of calculateMinValue: cities in order, and for each the years 1985 to 2015 in steps of 5. */
  method CollectValues(cities: seq<City>) returns (all: seq<Num>)
    ensures all == AllValues(cities)
  {
    all := [];
    var c := 0;
    while c < |cities|
      invariant 0 <= c <= |cities|
      invariant all == AllValues(cities[..c])
    {
      var year := FirstYear;
      var k := 0;
      while year <= LastYear
        invariant 0 <= k <= YearCount && year == YearAt(k)
        invariant all == AllValues(cities[..c]) + CityValues(cities[c])[..k]
      {
        all := all + [PopValue(cities[c], year)];
        year := year + Step;
        k := k + 1;
      }
      assert cities[..c + 1][..c] == cities[..c];
      c := c + 1;
    }
    assert cities[..|cities|] == cities;
  }

  /** What `Math.min(...values)` returns: +Infinity for no values, else a number. */
  datatype MinOut = Infinity | Least(n: Num)

  /**
   * `Math.min`: +Infinity with no arguments, NaN if any argument is NaN,
   * otherwise the least argument.
   */
  function MathMin(xs: seq<Num>): (r: MinOut)
    ensures r.Infinity? <==> |xs| == 0
    ensures (exists i :: 0 <= i < |xs| && xs[i].NaN?) ==> r == Least(NaN)
    ensures r.Least? && r.n.Fin? ==> r.n in xs && forall i :: 0 <= i < |xs| ==> xs[i].Fin? && r.n.v <= xs[i].v
    ensures |xs| > 0 && (forall i :: 0 <= i < |xs| ==> xs[i].Fin?) ==> r.Least? && r.n.Fin?
  {
    if |xs| == 0 then Infinity
    else
      var rest := MathMin(xs[1..]);
      assert forall i :: 1 <= i < |xs| ==> xs[i] == xs[1..][i - 1];
      match rest
      case Infinity => Least(xs[0])
      case Least(m) =>
        if xs[0].NaN? || m.NaN? then Least(NaN)
        else if xs[0].v <= m.v then Least(xs[0])
        else Least(m)
  }

  /** `calculateMinValue(data)`: the least of all collected values. */
  method CalculateMinValue(cities: seq<City>) returns (minValue: MinOut)
    ensures minValue.Infinity? <==> |cities| == 0
    ensures minValue.Least? && minValue.n.Fin? ==>
              forall c, k :: 0 <= c < |cities| && 0 <= k < YearCount ==>
                PopValue(cities[c], YearAt(k)).Fin? && minValue.n.v <= PopValue(cities[c], YearAt(k)).v
    ensures minValue.Least? && minValue.n.Fin? ==>
              exists c, k :: 0 <= c < |cities| && 0 <= k < YearCount && PopValue(cities[c], YearAt(k)) == minValue.n
    ensures minValue == MathMin(AllValues(cities))
  {
    var all := CollectValues(cities);
    AllValuesLayout(cities);
    minValue := MathMin(all);
    if minValue.Least? && minValue.n.Fin? {
      forall c, k | 0 <= c < |cities| && 0 <= k < YearCount
        ensures PopValue(cities[c], YearAt(k)).Fin? && minValue.n.v <= PopValue(cities[c], YearAt(k)).v
      {
        ValueOf(cities, c, k);
      }
      var i :| 0 <= i < |all| && all[i] == minValue.n;
      assert PopValue(cities[i / YearCount], YearAt(i % YearCount)) == minValue.n;
    }
  }

  /** Every collected value is a number no smaller than any bound all populations respect. */
  lemma {:induction false} AllValuesAtLeast(cities: seq<City>, bound: real)
    requires forall c, k :: 0 <= c < |cities| && 0 <= k < YearCount ==>
               PopValue(cities[c], YearAt(k)).Fin? && PopValue(cities[c], YearAt(k)).v >= bound
    ensures forall x :: x in AllValues(cities) ==> x.Fin? && x.v >= bound
  {
    if |cities| > 0 {
      var n := |cities| - 1;
      forall c, k | 0 <= c < n && 0 <= k < YearCount
        ensures PopValue(cities[..n][c], YearAt(k)).Fin? && PopValue(cities[..n][c], YearAt(k)).v >= bound
      {
        assert cities[..n][c] == cities[c];
      }
      AllValuesAtLeast(cities[..n], bound);
    }
  }

  /**
   * No positivity filter: a recorded population of 0 is the minimum when
   * every value is present and none is negative.
   */
  lemma ZeroIsTheMinimum(cities: seq<City>, c: nat, k: nat)
    requires c < |cities| && k < YearCount && PopValue(cities[c], YearAt(k)) == Fin(0.0)
    requires forall c', k' :: 0 <= c' < |cities| && 0 <= k' < YearCount ==>
               PopValue(cities[c'], YearAt(k')).Fin? && PopValue(cities[c'], YearAt(k')).v >= 0.0
    ensures MathMin(AllValues(cities)) == Least(Fin(0.0))
  {
    ValueOf(cities, c, k);
    AllValuesAtLeast(cities, 0.0);
    LeastOfBoundedValues(AllValues(cities), YearCount * c + k);
  }

  /** The minimum of numbers no smaller than one of them is that one. */
  lemma LeastOfBoundedValues(xs: seq<Num>, j: nat)
    requires j < |xs| && xs[j].Fin?
    requires forall x :: x in xs ==> x.Fin? && x.v >= xs[j].v
    ensures MathMin(xs) == Least(xs[j])
  {
    var m := MathMin(xs);
    assert m.n.v <= xs[j].v;
  }
}

=== FILE: prop_symbols.dfy ===
/**
 * Proportional-symbol sizing on the attendance map (unit-2/js/main.js):
 * choosing the statistics for the current scale, and `calcPropRadius`.
 */
module PropSymbols {
  import opened Wrappers
  import opened JsNumber
  import Strings
  import opened Attendance

  /** The visual range of symbol radii, in pixels. */
  const MinRadius: real := 4.0
  const MaxRadius: real := 30.0

  /** `currentScale`: 'global' compares across seasons, any other value within the season. */
  datatype Scale = Global | YearRelative

  /**
   * The statistics `calcPropRadius` selects: `perYearStats[year]` may be
   * undefined, and `globalStats` stays the empty object `{}` (truthy, but
   * with no `min` or `max`) when calculateAllStats never assigned it.
   */
  datatype StatsSlot = Undefined | EmptyObject | Present(stats: Stats)

  /**
   * The season `perYearStats[text]` finds. Its keys are stored as the year's
   * decimal text, so only that exact text finds the year.
   */
  function KeyYear(text: string): (r: Option<nat>)
    ensures r.Some? ==> NatToString(r.value) == text
    ensures forall y: nat :: NatToString(y) == text ==> r == Some(y)
  {
    if 0 < |text| && AllDigits(text) && (text[0] == '0' ==> |text| == 1) then
      CanonicalNumeral(text);
      Some(DigitsValue(text))
    else None
  }

  /**
   * `(currentScale === 'global') ? globalStats : perYearStats[attribute.split("_")[1]]`;
   * a missing second piece is `undefined`, which as a key reads "undefined".
   */
  function SelectStats(all: AllStats, scale: Scale, attribute: string): (slot: StatsSlot)
    ensures scale == Global ==> (slot.Present? <==> all.global.Some?)
    ensures scale == Global && all.global.None? ==> slot == EmptyObject
    ensures scale == YearRelative ==> !slot.EmptyObject?
    ensures scale == Global && all.global.Some? ==> slot == Present(all.global.value)
    ensures scale == YearRelative ==>
              var text := match Strings.SecondPiece(attribute, '_')
                          case Some(piece) => piece
                          case None => "undefined";
              slot == if KeyYear(text).Some? && KeyYear(text).value in all.perYear
                      then Present(all.perYear[KeyYear(text).value])
                      else Undefined
  {
    match scale
    case Global => if all.global.Some? then Present(all.global.value) else EmptyObject
    case YearRelative =>
      var text := match Strings.SecondPiece(attribute, '_')
                  case Some(piece) => piece
                  case None => "undefined";
      match KeyYear(text)
      case Some(year) => if year in all.perYear then Present(all.perYear[year]) else Undefined
      case None => Undefined
  }

  /** The year-relative scale finds a season's record through its attribute name "TOTAL_<year>". */
  lemma SelectSeasonStats(all: AllStats, year: nat)
    ensures SelectStats(all, YearRelative, YearAttribute(year))
            == if year in all.perYear then Present(all.perYear[year]) else Undefined
  {
    assert YearAttribute(year) == "TOTAL" + ['_'] + NatToString(year);
    assert forall i :: 0 <= i < |NatToString(year)| ==> NatToString(year)[i] != '_';
    Strings.SecondPieceAfterPrefix("TOTAL", '_', NatToString(year));
  }

  /** A `Math.sqrt` stand-in: 0 at 0, 1 at 1, never decreasing on non-negative arguments. */
  ghost predicate SqrtLike(root: real -> real) {
    && root(0.0) == 0.0
    && root(1.0) == 1.0
    && forall x, y :: 0.0 <= x <= y ==> root(x) <= root(y)
  }

  /**
   * The sized radius for a value and statistics that passed the guards:
   * MinRadius when max === min, otherwise MinRadius plus the square root of
   * the value's position in [min, max] times the radius range. Below min the
   * square root of a negative number is NaN.
   */
  function ScaledRadius(v: real, s: Stats, root: real -> real): (r: Num)
    requires SqrtLike(root)
    ensures s.max == s.min ==> r == Fin(MinRadius)
    ensures s.min <= v <= s.max ==> r.Fin? && MinRadius <= r.v <= MaxRadius
    ensures s.min < s.max && v == s.min ==> r == Fin(MinRadius)
    ensures s.min < s.max && v == s.max ==> r == Fin(MaxRadius)
    ensures s.min < s.max && v < s.min ==> r == NaN
  {
    if s.max == s.min then Fin(MinRadius)
    else
      var range := s.max - s.min;
      var normalized := (v - s.min) / range;
      if normalized < 0.0 then NaN
      else
        UnitFraction(v - s.min, range);
        assert normalized <= 1.0 ==> root(normalized) <= root(1.0);
        Fin(MinRadius + root(normalized) * (MaxRadius - MinRadius))
  }

  /** a / b lies in [0, 1] for 0 <= a <= b. */
  lemma UnitFraction(a: real, b: real)
    requires b != 0.0
    ensures 0.0 < b && 0.0 <= a <= b ==> 0.0 <= a / b <= 1.0
    ensures a == b ==> a / b == 1.0
    ensures a == 0.0 ==> a / b == 0.0
  {
    assert a / b * b == a;
    assert (1.0 - a / b) * b == b - a;
  }

  /**
   * `calcPropRadius(attValue, attribute)` once the statistics are selected,
   * as the source has it: 0 for a falsy or non-positive value, undefined
   * statistics or a non-positive minimum. The empty global object passes
   * every guard (`undefined <= 0` is false) and `undefined === undefined`
   * gives MinRadius.
   */
  function CalcPropRadius(attValue: Num, slot: StatsSlot, root: real -> real): (r: Num)
    requires SqrtLike(root)
    ensures !Truthy(attValue) || attValue.v <= 0.0 ==> r == Fin(0.0)
    ensures slot.Undefined? ==> r == Fin(0.0)
    ensures slot.Present? && slot.stats.min <= 0.0 ==> r == Fin(0.0)
    ensures Truthy(attValue) && attValue.v > 0.0 && slot.EmptyObject? ==> r == Fin(MinRadius)
    ensures Truthy(attValue) && slot.Present? && 0.0 < slot.stats.min <= attValue.v <= slot.stats.max ==>
              r.Fin? && MinRadius <= r.v <= MaxRadius
  {
    if !Truthy(attValue) || attValue.v <= 0.0 || slot.Undefined? || (slot.Present? && slot.stats.min <= 0.0) then
      Fin(0.0)
    else if slot.EmptyObject? then
      Fin(MinRadius)
    else
      ScaledRadius(attValue.v, slot.stats, root)
  }

  /** With the empty global object every positive value gets MinRadius instead of the guard's 0. */
  lemma EmptyGlobalStatsGiveMinRadius(all: AllStats, v: real, attribute: string, root: real -> real)
    requires SqrtLike(root)
    requires all.global.None? && v > 0.0
    ensures CalcPropRadius(Fin(v), SelectStats(all, Global, attribute), root) == Fin(MinRadius)
  {
  }

  /**
   * The guard as evidently intended: any selected statistics without a
   * minimum and maximum, the empty global object included, give 0.
   */
  function CalcPropRadiusGuarded(attValue: Num, slot: StatsSlot, root: real -> real): (r: Num)
    requires SqrtLike(root)
    ensures !slot.Present? ==> r == Fin(0.0)
    ensures !Truthy(attValue) || attValue.v <= 0.0 ==> r == Fin(0.0)
    ensures slot.Present? && slot.stats.min <= 0.0 ==> r == Fin(0.0)
    ensures Truthy(attValue) && slot.Present? && 0.0 < slot.stats.min <= attValue.v <= slot.stats.max ==>
              r.Fin? && MinRadius <= r.v <= MaxRadius
    ensures slot.Present? ==> r == CalcPropRadius(attValue, slot, root)
  {
    if !slot.Present? then Fin(0.0) else CalcPropRadius(attValue, slot, root)
  }

  /** With max === min the radius is MinRadius for every positive value. */
  lemma RadiusOfFlatStats(v: real, s: Stats, root: real -> real)
    requires SqrtLike(root)
    requires v > 0.0 && s.min > 0.0 && s.max == s.min
    ensures CalcPropRadiusGuarded(Fin(v), Present(s), root) == Fin(MinRadius)
  {
  }

  /** The radius grows from MinRadius at min to MaxRadius at max and never decreases in between. */
  lemma RadiusMonotone(v1: real, v2: real, s: Stats, root: real -> real)
    requires SqrtLike(root)
    requires 0.0 < s.min <= v1 <= v2 <= s.max
    ensures var r1 := CalcPropRadiusGuarded(Fin(v1), Present(s), root);
            var r2 := CalcPropRadiusGuarded(Fin(v2), Present(s), root);
            r1.Fin? && r2.Fin? && r1.v <= r2.v
    ensures CalcPropRadiusGuarded(Fin(s.min), Present(s), root) == Fin(MinRadius)
    ensures s.min < s.max ==> CalcPropRadiusGuarded(Fin(s.max), Present(s), root) == Fin(MaxRadius)
  {
    if s.min < s.max {
      var range := s.max - s.min;
      var n1 := (v1 - s.min) / range;
      var n2 := (v2 - s.min) / range;
      UnitFraction(v1 - s.min, range);
      UnitFraction(v2 - s.min, range);
      QuotientMonotone(v1 - s.min, v2 - s.min, range);
      assert root(n1) <= root(n2);
    }
  }

  /** Dividing by a positive number keeps the order. */
  lemma QuotientMonotone(a: real, b: real, d: real)
    requires d > 0.0 && a <= b
    ensures a / d <= b / d
  {
    var q := b / d - a / d;
    assert q * d == b - a;
  }

  /** The global record, once set, bounds every positive value of every season in range. */
  lemma GlobalBoundsRecordedValue(features: seq<Feature>, year: nat, i: nat)
    requires FirstYear <= year <= LastYear && i < |features|
    requires NumberOf(features[i], YearAttribute(year)).Fin? && NumberOf(features[i], YearAttribute(year)).v > 0.0
    ensures var g := CalculateAllStats(features).global;
            g.Some? && 0.0 < g.value.min <= NumberOf(features[i], YearAttribute(year)).v <= g.value.max
  {
    var v := NumberOf(features[i], YearAttribute(year)).v;
    var ns := YearColumn(features, year);
    assert ns[i] in ns;
    assert v in YearValues(features, year);
    assert StatYears()[year - FirstYear] == year;
    assert v in ValuesOfYears(features, StatYears());
    StoredStatsOrdered(features);
  }

  /**
   * Every positive attendance a season recorded gets a radius in
   * [MinRadius, MaxRadius] on either scale, once calculateAllStats has run.
   */
  lemma RecordedValueRadiusInRange(features: seq<Feature>, scale: Scale, year: nat, i: nat, root: real -> real)
    requires SqrtLike(root)
    requires FirstYear <= year <= LastYear && i < |features|
    requires NumberOf(features[i], YearAttribute(year)).Fin? && NumberOf(features[i], YearAttribute(year)).v > 0.0
    ensures var slot := SelectStats(CalculateAllStats(features), scale, YearAttribute(year));
            var r := CalcPropRadius(NumberOf(features[i], YearAttribute(year)), slot, root);
            slot.Present? && r.Fin? && MinRadius <= r.v <= MaxRadius
  {
    var slot := SelectStats(CalculateAllStats(features), scale, YearAttribute(year));
    RecordedValueWithinSelected(features, scale, year, i);
    RadiusOfBoundedValue(NumberOf(features[i], YearAttribute(year)), slot, root);
  }

  /** On either scale the selected record's bounds enclose a recorded value. */
  lemma RecordedValueWithinSelected(features: seq<Feature>, scale: Scale, year: nat, i: nat)
    requires FirstYear <= year <= LastYear && i < |features|
    requires NumberOf(features[i], YearAttribute(year)).Fin? && NumberOf(features[i], YearAttribute(year)).v > 0.0
    ensures var slot := SelectStats(CalculateAllStats(features), scale, YearAttribute(year));
            slot.Present? && 0.0 < slot.stats.min <= NumberOf(features[i], YearAttribute(year)).v <= slot.stats.max
  {
    match scale {
      case Global => RecordedValueWithinGlobal(features, year, i);
      case YearRelative => RecordedValueWithinSeason(features, year, i);
    }
  }

  /** A positive value within a selected record's bounds gets a radius in [MinRadius, MaxRadius]. */
  lemma RadiusOfBoundedValue(attValue: Num, slot: StatsSlot, root: real -> real)
    requires SqrtLike(root)
    requires attValue.Fin? && slot.Present? && 0.0 < slot.stats.min <= attValue.v <= slot.stats.max
    ensures var r := CalcPropRadius(attValue, slot, root);
            r.Fin? && MinRadius <= r.v <= MaxRadius
  {
    assert Truthy(attValue);
  }

  /** The global scale selects a record whose bounds enclose a recorded value. */
  lemma RecordedValueWithinGlobal(features: seq<Feature>, year: nat, i: nat)
    requires FirstYear <= year <= LastYear && i < |features|
    requires NumberOf(features[i], YearAttribute(year)).Fin? && NumberOf(features[i], YearAttribute(year)).v > 0.0
    ensures var slot := SelectStats(CalculateAllStats(features), Global, YearAttribute(year));
            slot.Present? && 0.0 < slot.stats.min <= NumberOf(features[i], YearAttribute(year)).v <= slot.stats.max
  {
    GlobalBoundsRecordedValue(features, year, i);
  }

  /** The season scale selects a record whose bounds enclose a value of that season. */
  lemma RecordedValueWithinSeason(features: seq<Feature>, year: nat, i: nat)
    requires FirstYear <= year <= LastYear && i < |features|
    requires NumberOf(features[i], YearAttribute(year)).Fin? && NumberOf(features[i], YearAttribute(year)).v > 0.0
    ensures var slot := SelectStats(CalculateAllStats(features), YearRelative, YearAttribute(year));
            slot.Present? && 0.0 < slot.stats.min <= NumberOf(features[i], YearAttribute(year)).v <= slot.stats.max
  {
    YearValuesNonEmpty(features, year);
    PerYearEntryIffPositive(features, year);
    OnlyPositiveValuesCount(features, year, i);
    SelectSeasonStats(CalculateAllStats(features), year);
  }

}

=== FILE: sequence_controls.dfy ===
/**
 * The forward and reverse buttons of the attendance map's time slider
 * (unit-2/js/main.js, createSequenceControls): each click moves the slider
 * index one step, wrapping around at either end of the attribute list.
 */
module SequenceControls {
  import opened Arith

  /** `maxIndex`: the last position of the attribute list. */
  function MaxIndex(attributes: seq<string>): (m: int)
    ensures m + 1 == |attributes|
  {
    |attributes| - 1
  }

  /** The forward button: one step on, back to 0 past maxIndex. */
  function Forward(index: int, maxIndex: int): (next: int)
    ensures 0 <= index <= maxIndex ==> 0 <= next <= maxIndex && next == (index + 1) % (maxIndex + 1)
  {
    if index + 1 > maxIndex then 0 else index + 1
  }

  /** The reverse button: one step back, round to maxIndex below 0. */
  function Reverse(index: int, maxIndex: int): (next: int)
    ensures 0 <= index <= maxIndex ==> 0 <= next <= maxIndex && next == (index - 1) % (maxIndex + 1)
  {
    if index - 1 < 0 then maxIndex else index - 1
  }

  /** Reverse undoes Forward and Forward undoes Reverse, for every slider position. */
  lemma StepsAreInverse(index: int, maxIndex: int)
    requires 0 <= index <= maxIndex
    ensures Reverse(Forward(index, maxIndex), maxIndex) == index
    ensures Forward(Reverse(index, maxIndex), maxIndex) == index
  {
  }

  /**
   * `updateMapForYearChange(newIndex)` after a click: the attribute the map
   * switches to, `attributes[newIndex]`. With `maxIndex = attributes.length - 1`
   * the new index always names an attribute, the next one round the list
   * (forward) or the previous one (reverse).
   */
  function SteppedAttribute(attributes: seq<string>, index: int, forward: bool): (attribute: string)
    requires 0 <= index < |attributes|
    ensures forward ==> attribute == attributes[(index + 1) % |attributes|]
    ensures !forward ==> attribute == attributes[(index - 1) % |attributes|]
  {
    var maxIndex := MaxIndex(attributes);
    attributes[if forward then Forward(index, maxIndex) else Reverse(index, maxIndex)]
  }

  /** One forward click per attribute brings the slider back to where it started. */
  lemma FullCycleReturns(attributes: seq<string>, index: int)
    requires 0 <= index < |attributes|
    ensures ForwardClicks(index, MaxIndex(attributes), |attributes|) == index
  {
    ForwardClicksWrap(index, MaxIndex(attributes), |attributes|);
    DivModUnique(index + |attributes|, |attributes|, 1, index);
  }

  /** The slider position after n forward clicks. */
  function ForwardClicks(index: int, maxIndex: int, n: nat): int {
    if n == 0 then index else Forward(ForwardClicks(index, maxIndex, n - 1), maxIndex)
  }

  /** n forward clicks move n places round the list: |attributes| clicks come back to the start. */
  lemma {:induction false} ForwardClicksWrap(index: int, maxIndex: int, n: nat)
    requires 0 <= index <= maxIndex
    ensures ForwardClicks(index, maxIndex, n) == (index + n) % (maxIndex + 1)
  {
    if n > 0 {
      var k, a := maxIndex + 1, index + n - 1;
      var prev := ForwardClicks(index, maxIndex, n - 1);
      ForwardClicksWrap(index, maxIndex, n - 1);
      NextRemainder(a, k);
      assert prev == a % k && a + 1 == index + n;
      if prev + 1 < k {
        assert Forward(prev, maxIndex) == prev + 1;
      } else {
        assert Forward(prev, maxIndex) == 0;
      }
    }
  }

  /** The remainder of a + 1 is one more than that of a, or 0 when that reaches k. */
  lemma NextRemainder(a: int, k: int)
    requires k > 0
    ensures a % k + 1 < k ==> (a + 1) % k == a % k + 1
    ensures a % k + 1 == k ==> (a + 1) % k == 0
  {
    var q := a / k;
    var p := a % k;
    assert a + 1 == q * k + (p + 1);
    if p + 1 < k {
      DivModUnique(a + 1, k, q, p + 1);
    } else {
      assert a + 1 == (q + 1) * k + 0;
      DivModUnique(a + 1, k, q + 1, 0);
    }
  }
}

=== FILE: strings.dfy ===
/**
 * The string operations the scripts use: `indexOf`, `split` on a one-character
 * separator, and the default ordering of `Array.prototype.sort`.
 */
module Strings {
  import opened Wrappers

  // ------------------------------------------------------------------
  // indexOf

  /** pat occurs in s starting at position i. */
  predicate OccursAt(s: string, pat: string, i: int) {
    0 <= i && i + |pat| <= |s| && s[i..i + |pat|] == pat
  }

  ghost predicate Contains(s: string, pat: string) {
    exists i :: 0 <= i <= |s| && OccursAt(s, pat, i)
  }

  /** `s.indexOf(pat, from)`: the first occurrence at or after `from`, or -1. */
  function IndexOfFrom(s: string, pat: string, from: nat): (r: int)
    requires from <= |s|
    ensures r == -1 || (from <= r && OccursAt(s, pat, r))
    ensures r == -1 ==> forall i :: from <= i ==> !OccursAt(s, pat, i)
    ensures r != -1 ==> forall i :: from <= i < r ==> !OccursAt(s, pat, i)
    decreases |s| - from
  {
    if from + |pat| > |s| then -1
    else if s[from..from + |pat|] == pat then from
    else IndexOfFrom(s, pat, from + 1)
  }

  /** `s.indexOf(pat)`: the position of the first occurrence of pat in s, or -1 when there is none. */
  function IndexOf(s: string, pat: string): (r: int)
    ensures r > -1 <==> Contains(s, pat)
    ensures r > -1 ==> OccursAt(s, pat, r) && forall i :: 0 <= i < r ==> !OccursAt(s, pat, i)
  {
    IndexOfFrom(s, pat, 0)
  }

  // ------------------------------------------------------------------
  // split

  /** The position of the first c in s. */
  function FirstIndexOf(s: string, c: char): (i: nat)
    requires c in s
    ensures i < |s| && s[i] == c && c !in s[..i]
  {
    if s[0] == c then 0
    else
      var i := 1 + FirstIndexOf(s[1..], c);
      assert s[..i] == [s[0]] + s[1..][..i - 1];
      i
  }

  /** The pieces joined back with sep between consecutive pieces: `parts.join(sep)`. */
  function Join(parts: seq<string>, sep: char): string
    requires |parts| > 0
  {
    if |parts| == 1 then parts[0] else parts[0] + [sep] + Join(parts[1..], sep)
  }

  /** `s.split(sep)` for a one-character separator: the maximal sep-free pieces, in order. */
  function Split(s: string, sep: char): (parts: seq<string>)
    ensures |parts| > 0
    ensures forall k :: 0 <= k < |parts| ==> sep !in parts[k]
    ensures Join(parts, sep) == s
    decreases |s|
  {
    if sep !in s then [s]
    else
      var i := FirstIndexOf(s, sep);
      var rest := Split(s[i + 1..], sep);
      var parts := [s[..i]] + rest;
      assert parts[1..] == rest;
      assert s == s[..i] + [sep] + s[i + 1..];
      parts
  }

  /** `s.split(sep)[1]`: the second piece, or None (JavaScript's undefined) when s has no sep. */
  function SecondPiece(s: string, sep: char): (r: Option<string>)
    ensures r.None? <==> sep !in s
  {
    var parts := Split(s, sep);
    if |parts| > 1 then Some(parts[1])
    else
      assert Join(parts, sep) == parts[0];
      None
  }

  /** The piece after a prefix that ends in the separator is the sep-free text that follows. */
  lemma SecondPieceAfterPrefix(prefix: string, sep: char, tail: string)
    requires sep !in prefix && sep !in tail
    ensures SecondPiece(prefix + [sep] + tail, sep) == Some(tail)
  {
    var s := prefix + [sep] + tail;
    assert s[|prefix|] == sep;
    var i := FirstIndexOf(s, sep);
    assert forall j :: 0 <= j < |prefix| ==> s[j] == prefix[j];
    assert i <= |prefix| ==> s[i] == sep;
    assert i == |prefix|;
    assert s[..i] == prefix && s[i + 1..] == tail;
  }

  // ------------------------------------------------------------------
  // The default sort order: character by character, a prefix first

  /** a sorts no later than b under the default comparison of `Array.prototype.sort`. */
  predicate Below(a: string, b: string) {
    |a| == 0 || (|b| > 0 && (a[0] < b[0] || (a[0] == b[0] && Below(a[1..], b[1..]))))
  }

  lemma {:induction false} BelowTotal(a: string, b: string)
    ensures Below(a, b) || Below(b, a)
  {
    if |a| > 0 && |b| > 0 && a[0] == b[0] {
      BelowTotal(a[1..], b[1..]);
    }
  }

  lemma {:induction false} BelowTransitive(a: string, b: string, c: string)
    requires Below(a, b) && Below(b, c)
    ensures Below(a, c)
  {
    if |a| > 0 && a[0] == b[0] && b[0] == c[0] {
      BelowTransitive(a[1..], b[1..], c[1..]);
    }
  }

  lemma {:induction false} BelowAntisymmetric(a: string, b: string)
    requires Below(a, b) && Below(b, a)
    ensures a == b
  {
    if |a| > 0 {
      BelowAntisymmetric(a[1..], b[1..]);
      assert a == [a[0]] + a[1..] && b == [b[0]] + b[1..];
    }
  }

  predicate Sorted(xs: seq<string>) {
    forall i, j :: 0 <= i < j < |xs| ==> Below(xs[i], xs[j])
  }

  /** x put into its place in a sorted sequence. */
  function Insert(x: string, xs: seq<string>): (r: seq<string>)
    requires Sorted(xs)
    ensures Sorted(r)
    ensures multiset(r) == multiset(xs) + multiset{x}
  {
    if |xs| == 0 then [x]
    else if Below(x, xs[0]) then
      assert forall j :: 0 < j < |xs| ==> Below(xs[0], xs[j]);
      forall j | 0 < j < |xs|
        ensures Below(x, xs[j])
      {
        BelowTransitive(x, xs[0], xs[j]);
      }
      assert xs == [xs[0]] + xs[1..];
      [x] + xs
    else
      BelowTotal(x, xs[0]);
      var tail := Insert(x, xs[1..]);
      var r := [xs[0]] + tail;
      forall j | 0 <= j < |tail|
        ensures Below(xs[0], tail[j])
      {
        assert tail[j] in multiset(tail);
        assert tail[j] == x || tail[j] in multiset(xs[1..]);
        if tail[j] != x {
          var k :| 0 <= k < |xs[1..]| && xs[1..][k] == tail[j];
          assert xs[k + 1] == tail[j];
        }
      }
      assert xs == [xs[0]] + xs[1..];
      r
  }

  /** `Array.prototype.sort()` with no comparator on strings: an ascending permutation. */
  function Sort(xs: seq<string>): (r: seq<string>)
    ensures Sorted(r)
    ensures multiset(r) == multiset(xs)
  {
    if |xs| == 0 then []
    else
      assert xs == [xs[0]] + xs[1..];
      Insert(xs[0], Sort(xs[1..]))
  }
}

=== FILE: wrappers.dfy ===
/** Failure-carrying values shared by the other modules. */
module Wrappers {

  /** A value that may be absent: a JavaScript `undefined` slot, or a search that found nothing. */
  datatype Option<+T> = None | Some(value: T)

  /** The outcome of an operation that may throw. */
  datatype Result<+T, +E> = Success(value: T) | Failure(error: E)
}
